=== FILE: README.md ===
# Receipt text post-processing

This project models the text half of the receipt reader in `hugging.py`. An
OCR model reads a receipt image and produces tagged text, for example
`<s_menu><s_nm> Tea</s_nm><s_num> 2</s_num>...<sep/>...<s_total_price> 4.00</s_total_price>`.
The code then does three things with it:

- `clean_receipt_text` turns the tags into `key: value` lines and normalises
  the spacing of every line.
- `extract_receipt_details` walks the cleaned lines with a one-flag state
  machine:
  - it records the values of six known keys (`date`, `time`, `total`,
    `subtotal`, `tax`, `total_price`);
  - a `menu` line opens the items section;
  - from then on, every line that carries the four item markers `nm:`,
    `num:`, `unitprice:` and `price:`, and whose key is neither one of the
    six recorded keys nor `menu`, becomes an item record.
- `process_receipt` composes the two and reports the recorded
  `total_price`.

The model consists of:

- `PyStrings`: the Python `str` operations the code relies on (`in`, `find`,
  `replace`, `split(sep)`, `split(sep, 1)`, `split()`, `join`, `strip`,
  `lower`).
- `Clean`: the cleaning pass.
- `Items`: the item branch.
- `Details`: the extraction loop.
  - Each line is first classified into a `LineKind` (no colon, a recorded
    key, `menu`, an item candidate, anything else).
  - `Apply` gives the effect of one reading on the state.
  - `Run` is the fold over the lines.
  - Properties are proved about the fold over readings and then carried
    back to the lines.
- `Receipt`: `process_receipt` after the prediction step.

The front end calls a `processReceipt` helper imported from `../helpers`
(src/components/ReceiptUploader.jsx:3). That helper is not part of this
model, because its source is not among the repository's files.

Item prices have two readings, selected by `Details.PriceReading`:

- `AsWritten` is the source's reading.
- `Intended` reads the price after the line's own `price:` marker (see
  Findings).

## Model

| member | source | states |
|---|---|---|
| PyStrings.IndexOf | hugging.py:42 | the index of the leftmost occurrence of the pattern, or none exactly when the pattern does not occur |
| PyStrings.Split | hugging.py:42 | `split(sep)` yields at least one piece, and at least two exactly when the separator occurs |
| PyStrings.SplitPiecesAvoidSeparator | hugging.py:42 | no piece of `split(sep)` contains the separator |
| PyStrings.SplitCutsLeftmost | hugging.py:42 | every cut of `split(sep)` is at the leftmost occurrence of `sep` in the text not yet split |
| PyStrings.SplitUnique | hugging.py:42 | any pieces that join back into the text, are cut each time at the leftmost occurrence in what remains and end in a piece without `sep` are exactly `split(sep)`; with `JoinSplit`, `SplitCutsLeftmost` and `SplitPiecesAvoidSeparator` this fixes the pieces for every separator, overlapping ones such as `aa` included |
| PyStrings.JoinSplit | hugging.py:42 | joining the pieces of `split(sep)` with `sep` gives the input back |
| PyStrings.SplitJoinChar | hugging.py:48 | splitting on `\n` undoes joining lines that contain no `\n` |
| PyStrings.SplitOnce | hugging.py:65 | `split(':', 1)` gives one piece, equal to the line, when there is no colon; otherwise the colon-free text before the first colon and the rest, which recompose the line |
| PyStrings.SplitOnceIsFirstCut | hugging.py:65 | the first piece of `split(':', 1)` is the first piece of `split(':')`, and the second is the rest re-joined |
| PyStrings.SplitOnceAtFirst | hugging.py:65 | a line `k + ":" + rest` with a colon-free `k` is cut into exactly `k` and `rest` |
| PyStrings.Replace | hugging.py:40 | `s.replace(p, r)` as a left-to-right scan in which each occurrence that does not overlap an earlier replaced one becomes `r`; the definition, with its properties in the rows that follow |
| PyStrings.Join | hugging.py:46-48 | `sep.join(parts)`: the parts in order with `sep` between neighbours; the definition, with `JoinSplit` and `SplitJoinChar` as its partners |
| PyStrings.Contains | hugging.py:64-74 | Python's `m in s`: `m` occurs in `s` at some index; `IndexOf` finds no occurrence exactly when it fails |
| PyStrings.ReplaceIsJoinSplit | hugging.py:40 | `s.replace(p, r)` equals `r.join(s.split(p))` for every input |
| PyStrings.ReplaceRemovesChar | hugging.py:40 | replacing a one-character pattern with text that lacks that character removes it |
| PyStrings.Words | hugging.py:46 | `line.split()` yields whitespace-free, non-empty tokens that, run together, are exactly the line's non-whitespace characters in order |
| PyStrings.WordsOfWord | hugging.py:46 | a text without whitespace is a single token of `split()` |
| PyStrings.WordsAtWhitespace | hugging.py:46 | `split()` cuts at every whitespace character: the tokens of `x + [c] + y` for a whitespace `c` are those of `x` followed by those of `y`; with `WordsOfWord` and the empty text this fixes `split()` on every input |
| PyStrings.NonWsJoin | hugging.py:46 | joining tokens with single spaces keeps exactly the tokens' text |
| PyStrings.NonWsReplace | hugging.py:46 | replacing a pattern by text with the same non-whitespace characters keeps the non-whitespace text |
| PyStrings.WordsOfJoin | hugging.py:46 | splitting single-space-joined tokens on whitespace gives the tokens back |
| PyStrings.Strip | hugging.py:66-67 | `strip()` returns a contiguous slice of its input with only whitespace cut away on either side; the result has no whitespace at its ends, and input without whitespace is returned unchanged |
| PyStrings.Lower | hugging.py:66 | `lower()` keeps the length and lowers each character on its own |
| PyStrings.LowerFacts | hugging.py:66 | lowered text holds no ASCII capital, keeps non-letters in place, and text without capitals is unchanged |
| PyStrings.LowerIdempotent | hugging.py:66 | lowering twice is the same as lowering once |
| Clean.RewriteTags | hugging.py:40 | after the five tag replacements, applied in source order, no `>` is left |
| Clean.NormaliseLine | hugging.py:46 | the normalised line is the line's tokens joined by single spaces, with each token that starts with a colon glued to the token before it; so it keeps exactly the line's non-whitespace characters, in order, and has only single spaces between tokens, no space at either end and none before a colon |
| Clean.ColonFixIsGlue | hugging.py:46 | `.replace(' :', ':')` on single-space-joined tokens glues each colon-initial token to its predecessor and changes nothing else |
| Clean.NormaliseLineIsGlue | hugging.py:46 | the tokens of the normalised line are the line's tokens with the colon-initial ones glued on |
| Clean.NormaliseKeepsWords | hugging.py:46 | a line none of whose later tokens starts with a colon keeps its tokens, and becomes them joined by single spaces: every whitespace run turns into one space |
| Clean.ColonFixKeepsText | hugging.py:46 | `.replace(' :', ':')` removes only whitespace |
| Clean.CleanReceiptText | hugging.py:37-49 | the cleaned text has as many lines as the rewritten text; each line is the normalisation of the matching rewritten line; no `>` remains |
| Clean.JoinWordsCollapsed | hugging.py:46 | tokens joined by single spaces form a collapsed line |
| Clean.CollapsedJoinWords | hugging.py:46 | a collapsed line is the single-space join of its own tokens (the inverse of `JoinWordsCollapsed`) |
| Clean.ColonFixGeneral | hugging.py:46 | `.replace(' :', ':')` on a line with single spaces and no trailing space: keeps spaces single, keeps the last character, keeps the first character when it is not a space, and leaves no space before a colon |
| Clean.NormalisedIsFixedPoint | hugging.py:46 | a line is in normal form exactly when normalising leaves it unchanged |
| Clean.NormaliseLineIdempotent | hugging.py:46 | normalising a line twice gives the same line as normalising it once |
| Items.IsItemLineAsWritten | hugging.py:74 | the guard of the item branch: all four markers occur in the line; `PriceGuardIsRedundant` shows the last is implied |
| Items.ParseItemAsWritten | hugging.py:75-78 | the four `split(...)[1].split(...)[0].strip()` extractions of the item branch as written, on lines that pass the guard; `AsWrittenPriceIsUnitPrice` and `AsWrittenPriceOnClosedItem` pin what its price is |
| Items.ParseItem | hugging.py:75-78 | the corrected item parser: the price is read after the line's own `price:` marker when there is one, else as written; `ParseItemChangesOnlyPrice` and `ParseFormattedItem` are its partners |
| Items.PriceGuardIsRedundant | hugging.py:74 | the item guard holds exactly when `nm:`, `num:` and `unitprice:` occur, because `price:` is inside `unitprice:` |
| Items.ParseItemChangesOnlyPrice | hugging.py:75-78 | on every line that passes the guard, the corrected reading keeps name, quantity and unit price, and changes the price only on lines with a `price:` marker of their own |
| Items.OwnPriceMarkerFrom | hugging.py:78 | the first `price:` piece that is not the tail of `unitprice:`, with every earlier piece ending in `unit` |
| Items.ParseFormattedItem | hugging.py:74-84 | on a line with each value behind its own marker, the corrected reading returns the four stripped values |
| Items.AsWrittenPriceIsUnitPrice | hugging.py:78 | on the same line the source's reading reports the unit price as the price |
| Items.AsWrittenPriceCounterexample | hugging.py:78 | on `nm:Teanum:2unitprice:2.00price:4.00` the source reports price `2.00`, and the corrected reading reports `4.00` |
| Items.ClosedItemGuard | hugging.py:74 | a line where every value is followed by its marker again passes the item guard |
| Items.AsWrittenPriceOnClosedItem | hugging.py:78 | on such a closed-tag line the source's price is the unit price with `unit` appended, and the corrected price is the price |
| Items.ClosedItemCounterexample | hugging.py:78 | on the cleaned line `nm: Teanm: num: 2num: unitprice: 2.00unitprice: price: 4.00price:` the source reports `2.00unit` and the corrected reading `4.00` |
| Items.GuardAfterPrefix | hugging.py:74 | text in front of an item line leaves it an item line |
| Details.KeyNamed | hugging.py:69 | the membership test in the six-key list: it finds a key exactly when the text is that key's name |
| Details.KeyNamedName | hugging.py:69 | every recorded key is found under its own name |
| Details.MenuIsNoKey | hugging.py:69-71 | `menu` is not one of the recorded keys |
| Details.EntryOf | hugging.py:64-67 | a line has an entry exactly when it contains a colon; the key is colon-free and holds no capital, and the value has no whitespace at its ends |
| Details.EntryOfKeyValue | hugging.py:65-67 | the entry of `k + ":" + rest` with a colon-free `k` is `(lower(strip(k)), strip(rest))` |
| Details.MenuKeyIsNormal | hugging.py:66-71 | `menu` survives stripping and lower-casing unchanged |
| Details.Classify | hugging.py:64-74 | a line is skipped exactly when it has no colon, is `menu` exactly when its key is `menu`, and is an item candidate exactly when its key is neither recorded nor `menu` and it passes the item guard; the item is the one the chosen reading parses |
| Details.ClassifySets | hugging.py:69-70 | a line stores a value under a recorded key exactly when its key is that key's name, and the value stored is the line's value |
| Details.Recorded | hugging.py:106 | `details.get(key)`: the key's value, or `None` when the key is absent or holds `None` |
| Details.Apply | hugging.py:69-84 | one line opens the items section exactly when it is `menu`, and appends its item exactly when it is a candidate and the section is already open |
| Details.ApplyRecorded | hugging.py:69-70 | one line sets the value of its own key and leaves every other key as it was |
| Details.Step | hugging.py:64-84 | one pass of the loop body: the line's reading applied to the state |
| Details.Run | hugging.py:63-84 | the loop over the readings, one `Apply` per line in order; `RunAppend` and `RunLast` are its partners |
| Details.RunLines | hugging.py:60-84 | the loop from the dictionary the source starts with (`total_price` set to `None`, no item, no section) |
| Details.Extract | hugging.py:54-86 | the extraction under a chosen price reading: split the text on `\n` and run the loop |
| Details.ExtractReceiptDetails | hugging.py:54-86 | the result always holds a `total_price` entry, and the extraction adds at most one item per line |
| Details.ExtractReceiptDetailsIntended | hugging.py:54-86 | the same for the corrected extraction |
| Details.RunKeepsKeys | hugging.py:56-70 | no line removes a key from the dictionary |
| Details.RunItemsBound | hugging.py:63-84 | each line adds at most one item |
| Details.RunLinesLast | hugging.py:63 | the extraction is the loop: the state after the lines is one step from the state after all but the last line |
| Details.RunAppend | hugging.py:63 | reading `xs + ys` is the same as reading `xs` and then going on with `ys` |
| Details.ColonFreeLineIgnored | hugging.py:64 | removing a line without a colon anywhere in the input does not change the result |
| Details.LastSetWins | hugging.py:70 | a key's value is the one stored by the last reading that sets it |
| Details.ValueFromReading | hugging.py:70 | a key's value is the one it started with, or the value of some reading that sets it |
| Details.NeverSet | hugging.py:70 | a key that no reading sets keeps the value it started with |
| Details.RecordedIsLastValue | hugging.py:68-70 | a recorded key's value is the value of the last line that carries the key, whether or not that line is in the items section |
| Details.RecordedValueFromLine | hugging.py:68-70 | every recorded value is the value of some line that carries its key |
| Details.RecordedIffKeyed | hugging.py:56-70 | a recorded key has a value exactly when some line carries the key |
| Details.MenuOpens | hugging.py:71-72 | after a `menu` reading the section stays open to the end |
| Details.NoMenu | hugging.py:71-73 | without a `menu` reading the section is unchanged, and while it is unset no item is added |
| Details.NoMenuNoItems | hugging.py:61-73 | before any `menu` line the section is unset and there are no items |
| Details.SectionOpensAtMenu | hugging.py:61-72 | the items section is open after the lines exactly when one of them is a `menu` line |
| Details.ItemsOnceOpen | hugging.py:73-84 | once the section is open, every candidate reading appends its item, in order |
| Details.ItemsAfterFirstMenu | hugging.py:71-84 | the items are exactly the candidate readings after the first `menu` reading |
| Details.CandidatesOfLines | hugging.py:73-84 | the item readings of the lines are the candidate lines, each read as an item |
| Details.ItemsFollowFirstMenu | hugging.py:71-84 | the items are exactly the items of the candidate lines after the first `menu` line, in line order; the `menu` line and every line before it add none |
| Details.MenuLineAddsNoItem | hugging.py:71-72 | every `menu` line opens the items section and leaves the recorded values and the items as they were, whatever else it carries |
| Details.MenuLineDropsItsItem | hugging.py:71-74 | the CORD `menu` line, `menu:` followed by a closed-tag item, passes the item guard, yet adds no item under either reading |
| Details.ReadingsDifferOnlyInPrices | hugging.py:75-84 | both readings give the same section, the same recorded values and as many items, which agree in name, quantity and unit price |
| Receipt.TotalPriceLookup | hugging.py:106 | `get('total_price', 'Total not found')`: the entry's value, or the default when the entry is absent |
| Receipt.ProcessReceipt | hugging.py:91-107 | the output carries the predicted text, its cleaned text and the extraction of that; the details hold a `total_price` entry, so the lookup returns the recorded `total_price` and never the `Total not found` default |
| Receipt.CleanedLines | hugging.py:60 | every line the extraction reads is in normal form |
| Receipt.TotalPriceIsLastTotalLine | hugging.py:106 | the reported total price is the value of the last `total_price` line of the cleaned text |
| Receipt.TotalPriceNoneIffNoTotalLine | hugging.py:106 | the reported total price is `None` exactly when no cleaned line is a `total_price` line; `Total not found` is reported only when such a line says so |

## Left out

- Model and tokenizer loading, `preprocess_image` and `predict_receipt` (hugging.py:7-34) are left out. They are ML inference through torch, transformers and PIL. The predicted text is an input to `Receipt.ProcessReceipt`.
- The Gradio interface and its launch (hugging.py:110-119) are left out, because they are UI and I/O.
- The `try/except` fallbacks (hugging.py:33-34, 50-51, 87-88) are not modelled.
  - For string inputs none of the guarded operations can raise.
  - Every `[1]` index in the item branch is preceded by a guard whose marker makes the split return at least two pieces (`Split` ensures this).
  - `split(':', 1)` is only unpacked on lines that contain a colon (`SplitOnce` ensures this).
- PyStrings.IsWhitespace: the whitespace set of `split()` and `strip()` is the ASCII set (space, `\t`, `\n`, `\r`, `\v`, `\f`). Python's Unicode whitespace, and the separators `\x1c`-`\x1f` and `\x85`, are not modelled.
- PyStrings.Lower: lowers ASCII letters only, where `str.lower()` at hugging.py:66 is Unicode. A non-ASCII capital in a key is therefore kept, and such a key matches none of the six recorded keys nor `menu` either way.
- Receipt.ProcessReceipt: the predicted text is a parameter. The error string `predict_receipt` returns on failure is just another input text.
- Details.Classify: parses the item of every candidate line, where the source parses it only while the section is open. Parsing has no effect on the state, so only `Apply` decides whether the item is kept.
- The `processReceipt` helper imported at src/components/ReceiptUploader.jsx:3 is not part of this model, because its source is not among the repository's files. The React components, the Flask upload endpoints (receipt/app.py, receipt.py) and the logout action are UI, HTTP and storage code.

## Findings

| source | as written | input that shows it | evidently intended | confidence | as-written member | corrected member |
|---|---|---|---|---|---|---|
| hugging.py:78 | `item_price = line.split('price:')[1].strip()`: the first `price:` of an item line is the tail of `unitprice:`, so the price is the text between that and the next `price:` | `nm:Teanum:2unitprice:2.00price:4.00` gives price `2.00`; the cleaned CORD line `nm: Teanm: num: 2num: unitprice: 2.00unitprice: price: 4.00price:` gives `2.00unit` | the text after the line's own `price:` marker, here `4.00` | high; not executed | Items.AsWrittenPriceCounterexample, Items.AsWrittenPriceOnClosedItem | Items.ParseFormattedItem, Details.ReadingsDifferOnlyInPrices |

=== FILE: clean.dfy ===
/**
 * `clean_receipt_text` (hugging.py): rewrites the tagged output of the
 * receipt OCR model into plain `key: value` lines and normalises the
 * spacing of every line.
 */
module Clean {
  import opened PyStrings

  /** The only whitespace in `t` is the plain space. */
  predicate OnlySpaces(t: string) {
    forall i | 0 <= i < |t| :: IsWhitespace(t[i]) ==> t[i] == ' '
  }

  /** `t` neither starts nor ends with a space. */
  predicate NoEdgeSpaces(t: string) {
    |t| > 0 ==> t[0] != ' ' && t[|t| - 1] != ' '
  }

  /** No space in `t` is followed by another space. */
  predicate NoDoubleSpaces(t: string) {
    forall i | 0 <= i < |t| - 1 :: t[i] == ' ' ==> t[i + 1] != ' '
  }

  /** No space in `t` is followed by a colon. */
  predicate NoSpaceBeforeColon(t: string) {
    forall i | 0 <= i < |t| - 1 :: t[i] == ' ' ==> t[i + 1] != ':'
  }

  /** Tokens separated by single spaces, as `' '.join(line.split())` yields. */
  predicate Collapsed(t: string) {
    OnlySpaces(t) && NoEdgeSpaces(t) && NoDoubleSpaces(t)
  }

  /** The shape of every line `clean_receipt_text` produces. */
  predicate Normalised(t: string) {
    Collapsed(t) && NoSpaceBeforeColon(t)
  }

  /**
   * The chain of rewrites at the head of `clean_receipt_text`: opening and
   * closing tag prefixes vanish, every `>` becomes `": "`, and a separator
   * tag (by then `<sep/:`) becomes a line break.
   */
  function RewriteTags(text: string): (r: string)
    ensures '>' !in r
  {
    var t1 := Replace(text, "<s_", "");
    var t2 := Replace(t1, "</s_", "");
    var t3 := Replace(t2, ">", ": ");
    ReplaceRemovesChar(t2, '>', ": ");
    var t4 := Replace(t3, "</s", "");
    ReplaceChars(t3, "</s", "");
    ReplaceChars(t4, "<sep/:", "\n");
    Replace(t4, "<sep/:", "\n")
  }

  /**
   * `' '.join(line.split()).replace(' :', ':')`: the tokens of the line
   * joined by single spaces, with the space before a colon dropped.
   */
  function NormaliseLine(line: string): (r: string)
    ensures Normalised(r)
    ensures forall c | c in r :: c in line || c == ' ' || c == ':'
    ensures NonWs(r) == NonWs(line)
    ensures r == Join(GlueColons(Words(line)), " ")
  {
    var words := Words(line);
    var joined := Join(words, " ");
    ColonFixIsGlue(words);
    NonWsJoin(words);
    ColonFixKeepsText(joined);
    JoinWordsCollapsed(words);
    ColonFixNormalises(joined);
    JoinChars(words, " ");
    assert forall c | c in joined :: c in line || c == ' ' by {
      forall c | c in joined
        ensures c in line || c == ' '
      {
        if c !in " " {
          var k :| 0 <= k < |words| && c in words[k];
        }
      }
    }
    ReplaceChars(joined, " :", ":");
    Replace(joined, " :", ":")
  }

  /** `w` starts with a colon. */
  predicate StartsWithColon(w: string) {
    |w| > 0 && w[0] == ':'
  }

  /**
   * The tokens that `.replace(' :', ':')` leaves of single-space-joined
   * tokens: every token that starts with a colon is glued to the token
   * before it.
   */
  function GlueColons(ws: seq<string>): (r: seq<string>)
    requires forall k | 0 <= k < |ws| :: IsWord(ws[k])
    ensures |ws| > 0 ==> |r| > 0
    ensures forall k | 0 <= k < |r| :: IsWord(r[k])
    decreases |ws|
  {
    if |ws| <= 1 then ws
    else if StartsWithColon(ws[1]) then
      GlueWords(ws);
      GlueColons([ws[0] + ws[1]] + ws[2..])
    else [ws[0]] + GlueColons(ws[1..])
  }

  /** Gluing the second token to the first leaves a list of tokens. */
  lemma GlueWords(ws: seq<string>)
    requires |ws| >= 2 && forall k | 0 <= k < |ws| :: IsWord(ws[k])
    ensures forall k | 0 <= k < |[ws[0] + ws[1]] + ws[2..]| :: IsWord(([ws[0] + ws[1]] + ws[2..])[k])
  {
    var g := [ws[0] + ws[1]] + ws[2..];
    forall k | 0 <= k < |g|
      ensures IsWord(g[k])
    {
      if k == 0 {
        var w := ws[0] + ws[1];
        forall i | 0 <= i < |w|
          ensures !IsWhitespace(w[i])
        {
          if i >= |ws[0]| {
            assert w[i] == ws[1][i - |ws[0]|];
          }
        }
      } else {
        assert g[k] == ws[k + 1];
      }
    }
  }

  /** Without a token that starts with a colon, there is nothing to glue. */
  lemma {:induction false} GlueNoColon(ws: seq<string>)
    requires forall k | 0 <= k < |ws| :: IsWord(ws[k])
    requires forall k | 1 <= k < |ws| :: !StartsWithColon(ws[k])
    ensures GlueColons(ws) == ws
    decreases |ws|
  {
    if |ws| > 1 {
      GlueNoColon(ws[1..]);
      assert [ws[0]] + ws[1..] == ws;
    }
  }

  /** No ` :` starts inside a token, so `replace` copies it. */
  lemma ReplaceAfterWord(w: string, u: string)
    requires forall i | 0 <= i < |w| :: !IsWhitespace(w[i])
    ensures Replace(w + u, " :", ":") == w + Replace(u, " :", ":")
  {
    var s := w + u;
    forall p | 0 <= p < |w|
      ensures !OccursAt(s, " :", p)
    {
      assert s[p] == w[p];
      if p + 2 <= |s| {
        assert s[p..p + 2][0] == s[p];
      }
    }
    ReplaceSkips(s, " :", ":", |w|);
    assert s[..|w|] == w;
    assert s[|w|..] == u;
  }

  /** A space before a character other than a colon is copied. */
  lemma ReplaceSpaceNoColon(u: string)
    requires |u| > 0 && u[0] != ':'
    ensures Replace(" " + u, " :", ":") == " " + Replace(u, " :", ":")
  {
    var s := " " + u;
    assert s[1] == u[0];
    assert s[..2] != " :" by { assert s[..2][1] == s[1]; }
    assert s[1..] == u;
  }

  /** A space before a colon is dropped. */
  lemma ReplaceSpaceColon(u: string)
    requires |u| > 0 && u[0] == ':'
    ensures Replace(" " + u, " :", ":") == ":" + Replace(u[1..], " :", ":")
  {
    var s := " " + u;
    assert s[..2] == " :";
    assert s[2..] == u[1..];
  }

  /** A leading colon is copied. */
  lemma ReplaceColonStart(u: string)
    requires |u| > 0 && u[0] == ':'
    ensures Replace(u, " :", ":") == ":" + Replace(u[1..], " :", ":")
  {
    if |u| >= 2 {
      assert u[..2] != " :" by { assert u[..2][0] == u[0]; }
    } else {
      assert u == ":";
      assert u[1..] == [];
    }
  }

  /**
   * `.replace(' :', ':')` on single-space-joined tokens is the single-space
   * join of the tokens with every colon-initial token glued to its predecessor.
   */
  lemma {:induction false} ColonFixIsGlue(ws: seq<string>)
    requires forall k | 0 <= k < |ws| :: IsWord(ws[k])
    ensures Replace(Join(ws, " "), " :", ":") == Join(GlueColons(ws), " ")
    decreases |ws|
  {
    if |ws| == 1 {
      ReplaceAfterWord(ws[0], "");
      assert ws[0] + "" == ws[0];
    } else if |ws| > 1 {
      if StartsWithColon(ws[1]) {
        GlueWords(ws);
        ColonFixGlueStep(ws);
        ColonFixIsGlue([ws[0] + ws[1]] + ws[2..]);
      } else {
        ColonFixSpaceStep(ws);
        ColonFixIsGlue(ws[1..]);
        JoinCons(ws[0], GlueColons(ws[1..]), " ");
      }
    }
  }

  /** A space before a colon-initial second token is dropped: the two tokens become one. */
  lemma ColonFixGlueStep(ws: seq<string>)
    requires |ws| >= 2 && forall k | 0 <= k < |ws| :: IsWord(ws[k])
    requires StartsWithColon(ws[1])
    ensures Replace(Join(ws, " "), " :", ":") == Replace(Join([ws[0] + ws[1]] + ws[2..], " "), " :", ":")
  {
    var w := ws[0];
    var j := Join(ws[1..], " ");
    JoinHead(ws[1..], " ");
    GlueJoin(ws);
    AppendAssoc(w, " ", j);
    WordThenColon(Join(ws, " "), w, j);
  }

  /** Gluing the second token to the first joins to the text without the space between them. */
  lemma GlueJoin(ws: seq<string>)
    requires |ws| >= 2
    ensures Join([ws[0] + ws[1]] + ws[2..], " ") == ws[0] + Join(ws[1..], " ")
  {
    var g := [ws[0] + ws[1]] + ws[2..];
    if |ws| == 2 {
      assert ws[1..] == [ws[1]];
    } else {
      JoinCons(ws[0] + ws[1], ws[2..], " ");
      JoinCons(ws[1], ws[2..], " ");
      assert [ws[1]] + ws[2..] == ws[1..];
    }
  }

  /** `replace` treats `w + " " + j` and `w + j` alike when `j` starts with a colon. */
  lemma WordThenColon(t: string, w: string, j: string)
    requires forall i | 0 <= i < |w| :: !IsWhitespace(w[i])
    requires StartsWithColon(j)
    requires t == w + (" " + j)
    ensures Replace(t, " :", ":") == Replace(w + j, " :", ":")
  {
    ReplaceAfterWord(w, " " + j);
    ReplaceSpaceColon(j);
    ReplaceAfterWord(w, j);
    ReplaceColonStart(j);
  }

  /** A space before a second token that does not start with a colon is kept. */
  lemma ColonFixSpaceStep(ws: seq<string>)
    requires |ws| >= 2 && forall k | 0 <= k < |ws| :: IsWord(ws[k])
    requires !StartsWithColon(ws[1])
    ensures Replace(Join(ws, " "), " :", ":") == ws[0] + " " + Replace(Join(ws[1..], " "), " :", ":")
  {
    var w := ws[0];
    var j := Join(ws[1..], " ");
    JoinHead(ws[1..], " ");
    AppendAssoc(w, " ", j);
    WordThenSpace(Join(ws, " "), w, j);
    AppendAssoc(w, " ", Replace(j, " :", ":"));
  }

  /** `replace` keeps the space of `w + " " + j` when `j` does not start with a colon. */
  lemma WordThenSpace(t: string, w: string, j: string)
    requires forall i | 0 <= i < |w| :: !IsWhitespace(w[i])
    requires |j| > 0 && !StartsWithColon(j)
    requires t == w + (" " + j)
    ensures Replace(t, " :", ":") == w + (" " + Replace(j, " :", ":"))
  {
    ReplaceAfterWord(w, " " + j);
    ReplaceSpaceNoColon(j);
  }

  /**
   * The normalised line is its tokens, colon-initial ones glued to their
   * predecessors, joined by single spaces; in particular every run of
   * whitespace between two tokens becomes one space.
   */
  lemma NormaliseLineIsGlue(line: string)
    ensures NormaliseLine(line) == Join(GlueColons(Words(line)), " ")
    ensures Words(NormaliseLine(line)) == GlueColons(Words(line))
  {
    WordsOfJoin(GlueColons(Words(line)));
  }

  /** A line none of whose later tokens starts with a colon keeps its tokens. */
  lemma NormaliseKeepsWords(line: string)
    requires forall k | 1 <= k < |Words(line)| :: !StartsWithColon(Words(line)[k])
    ensures NormaliseLine(line) == Join(Words(line), " ")
    ensures Words(NormaliseLine(line)) == Words(line)
  {
    NormaliseLineIsGlue(line);
    GlueNoColon(Words(line));
  }

  /** `clean_receipt_text`: rewrite the tags, then normalise every line. */
  function CleanReceiptText(text: string): (r: string)
    ensures '>' !in r
    ensures |Split(r, "\n")| == |Split(RewriteTags(text), "\n")|
    ensures forall k | 0 <= k < |Split(r, "\n")| ::
      Split(r, "\n")[k] == NormaliseLine(Split(RewriteTags(text), "\n")[k])
    ensures forall k | 0 <= k < |Split(r, "\n")| :: Normalised(Split(r, "\n")[k])
  {
    var lines := Split(RewriteTags(text), "\n");
    SplitChars(RewriteTags(text), "\n");
    CleanedLinesJoin(lines);
    Join(NormaliseLines(lines), "\n")
  }

  /** `' '.join(line.split()).replace(' :', ':')` applied to every line, in order. */
  function NormaliseLines(lines: seq<string>): (r: seq<string>)
    ensures |r| == |lines|
    ensures forall k | 0 <= k < |r| :: r[k] == NormaliseLine(lines[k])
  {
    seq(|lines|, k requires 0 <= k < |lines| => NormaliseLine(lines[k]))
  }

  /** The normalised lines of a `>`-free text join into a text that splits back into them and has no `>`. */
  lemma CleanedLinesJoin(lines: seq<string>)
    requires |lines| >= 1
    requires forall k | 0 <= k < |lines| :: '>' !in lines[k]
    ensures '>' !in Join(NormaliseLines(lines), "\n")
    ensures Split(Join(NormaliseLines(lines), "\n"), "\n") == NormaliseLines(lines)
  {
    var cleaned := NormaliseLines(lines);
    forall k | 0 <= k < |cleaned|
      ensures '>' !in cleaned[k] && '\n' !in cleaned[k]
    {
      assert cleaned[k] == NormaliseLine(lines[k]);
    }
    JoinChars(cleaned, "\n");
    SplitJoinChar(cleaned, '\n');
  }

  /** Tokens joined by single spaces form a collapsed line. */
  lemma {:induction false} JoinWordsCollapsed(ws: seq<string>)
    requires forall k | 0 <= k < |ws| :: IsWord(ws[k])
    ensures Collapsed(Join(ws, " "))
    ensures |ws| > 0 ==> |Join(ws, " ")| > 0 && Join(ws, " ")[0] == ws[0][0]
    decreases |ws|
  {
    if |ws| > 1 {
      var w, rest := ws[0], Join(ws[1..], " ");
      JoinWordsCollapsed(ws[1..]);
      var t := w + " " + rest;
      assert Join(ws, " ") == t;
      assert rest[0] == ws[1][0];
      assert !IsWhitespace(w[|w| - 1]);
      assert !IsWhitespace(rest[0]);
      forall i | 0 <= i < |t|
        ensures IsWhitespace(t[i]) ==> t[i] == ' '
      {
        if i > |w| {
          assert t[i] == rest[i - |w| - 1];
        }
      }
      forall i | 0 <= i < |t| - 1
        ensures t[i] == ' ' ==> t[i + 1] != ' '
      {
        if i > |w| {
          assert t[i] == rest[i - |w| - 1];
          assert t[i + 1] == rest[i - |w|];
        } else if i == |w| {
          assert t[i + 1] == rest[0];
        } else if i == |w| - 1 {
          assert t[i] == w[|w| - 1];
        }
      }
      assert t[|t| - 1] == rest[|rest| - 1];
    }
  }

  /**
   * Induction hypothesis for dropping the space before each colon:
   * the result keeps single spacing, keeps the last character, and keeps
   * the first character when that is not a space.
   */
  lemma {:induction false} ColonFixGeneral(t: string)
    requires OnlySpaces(t) && NoDoubleSpaces(t)
    requires |t| > 0 ==> t[|t| - 1] != ' '
    ensures OnlySpaces(Replace(t, " :", ":"))
    ensures NoDoubleSpaces(Replace(t, " :", ":"))
    ensures NoSpaceBeforeColon(Replace(t, " :", ":"))
    ensures |t| > 0 ==> |Replace(t, " :", ":")| > 0 && Replace(t, " :", ":")[|Replace(t, " :", ":")| - 1] == t[|t| - 1]
    ensures |t| > 0 && t[0] != ' ' ==> |Replace(t, " :", ":")| > 0 && Replace(t, " :", ":")[0] == t[0]
    decreases |t|
  {
    var r := Replace(t, " :", ":");
    if |t| >= 2 {
      if t[..2] == " :" {
        var u := t[2..];
        assert forall i | 0 <= i < |u| :: u[i] == t[i + 2];
        ColonFixGeneral(u);
        var r' := Replace(u, " :", ":");
        assert r == ":" + r';
        forall i | 0 <= i < |r|
          ensures IsWhitespace(r[i]) ==> r[i] == ' '
        {
          if i > 0 { assert r[i] == r'[i - 1]; }
        }
        forall i | 0 <= i < |r| - 1
          ensures r[i] == ' ' ==> r[i + 1] != ' ' && r[i + 1] != ':'
        {
          if i > 0 { assert r[i] == r'[i - 1] && r[i + 1] == r'[i]; }
        }
      } else {
        var u := t[1..];
        assert forall i | 0 <= i < |u| :: u[i] == t[i + 1];
        ColonFixGeneral(u);
        var r' := Replace(u, " :", ":");
        assert r == [t[0]] + r';
        if t[0] == ' ' {
          assert t[1] != ' ';
          assert t[1] != ':' by { assert t[..2] == [t[0], t[1]]; }
          assert r'[0] == t[1];
        }
        forall i | 0 <= i < |r|
          ensures IsWhitespace(r[i]) ==> r[i] == ' '
        {
          if i > 0 { assert r[i] == r'[i - 1]; }
        }
        forall i | 0 <= i < |r| - 1
          ensures r[i] == ' ' ==> r[i + 1] != ' ' && r[i + 1] != ':'
        {
          if i > 0 { assert r[i] == r'[i - 1] && r[i + 1] == r'[i]; }
        }
      }
    }
  }

  /** Dropping the space before each colon removes only whitespace. */
  lemma ColonFixKeepsText(t: string)
    ensures NonWs(Replace(t, " :", ":")) == NonWs(t)
  {
    assert NonWs(":") == ":" + NonWs([]);
    assert NonWs(" :") == NonWs(":") by {
      assert " :"[1..] == ":";
    }
    NonWsReplace(t, " :", ":");
  }

  /** Dropping the space before each colon turns a collapsed line into a normalised one. */
  lemma ColonFixNormalises(t: string)
    requires Collapsed(t)
    ensures Normalised(Replace(t, " :", ":"))
  {
    ColonFixGeneral(t);
  }

  /** A collapsed line is the single-space join of its own tokens. */
  lemma {:induction false} CollapsedJoinWords(t: string)
    requires Collapsed(t)
    ensures Join(Words(t), " ") == t
    ensures |t| > 0 ==> |Words(t)| > 0
    decreases |t|
  {
    if |t| > 0 {
      var n := WordLength(t);
      if n == |t| {
        SingleWord(t);
      } else {
        var u := t[n + 1..];
        FirstWordThenSpace(t);
        CollapsedAfterWord(t, n);
        CollapsedJoinWords(u);
        JoinCons(t[..n], Words(u), " ");
      }
    }
  }

  /** What follows the first token and its space in a collapsed line is again collapsed. */
  lemma CollapsedAfterWord(t: string, n: nat)
    requires Collapsed(t) && n == WordLength(t) < |t|
    ensures |t[n + 1..]| > 0 && Collapsed(t[n + 1..])
  {
    var u := t[n + 1..];
    assert forall i | 0 <= i < |u| :: u[i] == t[i + n + 1];
    assert |u| > 0 && u[0] != ' ';
  }

  /** A collapsed line without a space is its own only token. */
  lemma SingleWord(t: string)
    requires Collapsed(t) && |t| > 0 && WordLength(t) == |t|
    ensures Words(t) == [t]
  {
    assert !IsWhitespace(t[0]);
    assert t[..|t|] == t;
    assert t[|t|..] == [];
  }

  /** A collapsed line with a space is its first token, that space, and the rest. */
  lemma FirstWordThenSpace(t: string)
    requires Collapsed(t) && |t| > 0 && WordLength(t) < |t|
    ensures Words(t) == [t[..WordLength(t)]] + Words(t[WordLength(t) + 1..])
    ensures t[..WordLength(t)] + " " + t[WordLength(t) + 1..] == t
  {
    var n := WordLength(t);
    assert !IsWhitespace(t[0]);
    assert t[n] == ' ';
    assert t[n..][1..] == t[n + 1..];
    assert Words(t[n..]) == Words(t[n + 1..]);
    assert [t[n]] == " ";
    AroundIndex(t, n);
  }

  /** A sequence is its part before index `n`, the element at `n`, and its part after. */
  lemma AroundIndex<T>(s: seq<T>, n: nat)
    requires n < |s|
    ensures s[..n] + [s[n]] + s[n + 1..] == s
  {
  }

  /** A line without a space before any colon has no `" :"` to replace. */
  lemma NoSpaceBeforeColonHasNoPattern(t: string)
    requires NoSpaceBeforeColon(t)
    ensures !Contains(t, " :")
  {
    forall p | 0 <= p <= |t| - 2
      ensures !OccursAt(t, " :", p)
    {
      assert t[p..p + 2] == [t[p], t[p + 1]];
    }
  }

  /** Normalised lines are exactly the fixed points of the line normaliser. */
  lemma NormalisedIsFixedPoint(t: string)
    ensures Normalised(t) <==> NormaliseLine(t) == t
  {
    if Normalised(t) {
      CollapsedJoinWords(t);
      NoSpaceBeforeColonHasNoPattern(t);
      ReplaceWithoutOccurrence(t, " :", ":");
    }
  }

  /** Normalising a line twice gives the same line as normalising it once. */
  lemma NormaliseLineIdempotent(line: string)
    ensures NormaliseLine(NormaliseLine(line)) == NormaliseLine(line)
  {
    NormalisedIsFixedPoint(NormaliseLine(line));
  }
}

=== FILE: details.dfy ===
/**
 * `extract_receipt_details` (hugging.py): the cleaned text is read line by
 * line.  A line with a colon is cut at its first colon into a key and a
 * value; a header key records its value, a `menu` key opens the items
 * section, and inside that section any other line that carries the four
 * item markers adds one item.  Lines without a colon are skipped.
 */
module Details {
  import opened Options
  import opened PyStrings
  import opened Items

  /** `current_section`: `None` until a `menu` line, `'items'` from then on. */
  datatype Section = NoSection | ItemsSection

  /** The keys whose values the source records, in the order it lists them. */
  datatype Key = Date | Time | Total | Subtotal | Tax | TotalPrice

  /** The name of a recorded key, as a stripped, lower-cased key reads. */
  function Name(k: Key): string {
    match k
    case Date => "date"
    case Time => "time"
    case Total => "total"
    case Subtotal => "subtotal"
    case Tax => "tax"
    case TotalPrice => "total_price"
  }

  /** The recorded key with the given name: the membership test in the source's list of six keys. */
  function KeyNamed(s: string): (r: Option<Key>)
    ensures r.Some? ==> Name(r.value) == s
    ensures r.None? ==> forall k: Key :: Name(k) != s
  {
    if s == "date" then Some(Date)
    else if s == "time" then Some(Time)
    else if s == "total" then Some(Total)
    else if s == "subtotal" then Some(Subtotal)
    else if s == "tax" then Some(Tax)
    else if s == "total_price" then Some(TotalPrice)
    else None
  }

  /** Each recorded key is found under its own name. */
  lemma KeyNamedName(k: Key)
    ensures KeyNamed(Name(k)) == Some(k)
  {
    var n := Name(k);
    assert |Name(Date)| == 4 && |Name(Time)| == 4 && |Name(Total)| == 5;
    assert |Name(Subtotal)| == 8 && |Name(Tax)| == 3 && |Name(TotalPrice)| == 11;
    assert Name(Date)[0] == 'd' && Name(Time)[0] == 't';
  }

  const MenuKey: string := "menu"

  /** `menu` is not a recorded key. */
  lemma MenuIsNoKey()
    ensures KeyNamed(MenuKey) == None
  {
    assert |MenuKey| == 4 && MenuKey[0] == 'm';
    assert "date"[0] == 'd' && "time"[0] == 't';
  }

  /**
   * The dictionary the extraction returns: `values` holds the recorded keys
   * present in it, each with its value or `None`, and `items` the items in
   * reading order.
   */
  datatype Details = Details(values: map<Key, Option<string>>, items: seq<Item>)

  /** What the loop carries from one line to the next. */
  datatype State = State(section: Section, details: Details)

  /** Which reading of the price the item branch uses: the source's or the corrected one. */
  datatype PriceReading = AsWritten | Intended

  /** The dictionary before the first line: `total_price` set to `None`, and no item. */
  const Initial: State := State(NoSection, Details(map[TotalPrice := None], []))

  /** A line cut at its first colon: the stripped, lower-cased key and the stripped value. */
  datatype Entry = Entry(key: string, value: string)

  /** No ASCII capital letter occurs in `s`. */
  predicate NoCapitals(s: string) {
    forall i | 0 <= i < |s| :: !('A' <= s[i] <= 'Z')
  }

  /**
   * `key, value = line.split(':', 1)` followed by `key.strip().lower()` and
   * `value.strip()`, for a line that contains a colon.
   */
  function EntryOf(line: string): (r: Option<Entry>)
    ensures r.None? <==> ':' !in line
    ensures r.Some? ==> ':' !in r.value.key && NoCapitals(r.value.key)
    ensures r.Some? ==> |r.value.value| > 0 ==> !IsWhitespace(r.value.value[0]) && !IsWhitespace(r.value.value[|r.value.value| - 1])
  {
    ContainsChar(line, ':');
    if ':' !in line then None
    else
      var parts := SplitOnce(line, ":");
      ContainsChar(parts[0], ':');
      StripChars(parts[0], ':');
      LowerFacts(Strip(parts[0]));
      Some(Entry(Lower(Strip(parts[0])), Strip(parts[1])))
  }

  /** A line cut at its first colon: the text before it gives the key, the text after it the value. */
  lemma EntryOfKeyValue(k: string, rest: string)
    requires ':' !in k
    ensures EntryOf(k + ":" + rest) == Some(Entry(Lower(Strip(k)), Strip(rest)))
  {
    var line := k + ":" + rest;
    assert line[|k|] == ':';
    SplitOnceAtFirst(k, ":", rest);
  }

  /** `menu` is its own key: stripping and lower-casing leave it as it is. */
  lemma MenuKeyIsNormal()
    ensures ':' !in MenuKey && Lower(Strip(MenuKey)) == MenuKey
  {
    var k := MenuKey;
    assert forall i | 0 <= i < |k| :: 'a' <= k[i] <= 'z';
    LowerWordNormal(k);
  }

  /** The line is a `key: value` line with the given key. */
  predicate HasKey(line: string, key: string) {
    EntryOf(line).Some? && EntryOf(line).value.key == key
  }

  /** The value of a `key: value` line. */
  function ValueOf(line: string): string
    requires EntryOf(line).Some?
  {
    EntryOf(line).value.value
  }

  /** The item of an item line, under either reading of the price. */
  function ReadItem(reading: PriceReading, line: string): Item
    requires IsItemLineAsWritten(line)
  {
    match reading
    case AsWritten => ParseItemAsWritten(line)
    case Intended => ParseItem(line)
  }

  /**
   * A line that yields an item once the items section is open: a colon line
   * whose key is neither recorded nor `menu`, carrying the item markers.
   */
  predicate IsItemCandidate(line: string) {
    EntryOf(line).Some? && KeyNamed(EntryOf(line).value.key).None?
    && EntryOf(line).value.key != MenuKey && IsItemLineAsWritten(line)
  }

  /** `details.get(key)` for a recorded key: `None` when the key is absent or holds `None`. */
  function Recorded(d: Details, key: Key): Option<string> {
    Lookup(d.values, key).GetOr(None)
  }

  /**
   * What one line means to the loop, in the order the source tests it: no
   * colon, a recorded key, `menu`, and any other key with or without the
   * item markers.
   */
  datatype LineKind =
    | Skipped
    | Field(key: Key, value: string)
    | Menu
    | ItemLine(item: Item)
    | Ignored

  /**
   * The reading of one line.  The source parses an item line only while the
   * items section is open; parsing has no effect on the state, so the model
   * reads the item here and `Apply` decides whether to keep it.
   */
  function Classify(reading: PriceReading, line: string): (k: LineKind)
    ensures k.Skipped? <==> ':' !in line
    ensures k.Menu? <==> HasKey(line, MenuKey)
    ensures k.ItemLine? <==> IsItemCandidate(line)
    ensures k.ItemLine? ==> k.item == ReadItem(reading, line)
  {
    MenuIsNoKey();
    match EntryOf(line)
    case None => Skipped
    case Some(e) =>
      match KeyNamed(e.key)
      case Some(key) => Field(key, e.value)
      case None =>
        if e.key == MenuKey then Menu
        else if IsItemLineAsWritten(line) then ItemLine(ReadItem(reading, line))
        else Ignored
  }

  /** The reading stores a value under `key`. */
  predicate Sets(k: LineKind, key: Key) {
    k.Field? && k.key == key
  }

  /** A line stores a value under a recorded key exactly when it carries that key, and the value is its own. */
  lemma ClassifySets(reading: PriceReading, line: string, key: Key)
    ensures Sets(Classify(reading, line), key) <==> HasKey(line, Name(key))
    ensures HasKey(line, Name(key)) ==> Sets(Classify(reading, line), key) && Classify(reading, line).value == ValueOf(line)
  {
    KeyNamedName(key);
  }

  /** The effect of one line on the state. */
  function Apply(st: State, k: LineKind): (r: State)
    ensures r.section == if k.Menu? then ItemsSection else st.section
    ensures r.details.items
      == if k.ItemLine? && st.section == ItemsSection then st.details.items + [k.item] else st.details.items
  {
    match k
    case Skipped => st
    case Field(key, value) => st.(details := st.details.(values := st.details.values[key := Some(value)]))
    case Menu => st.(section := ItemsSection)
    case ItemLine(item) =>
      if st.section == ItemsSection then st.(details := st.details.(items := st.details.items + [item])) else st
    case Ignored => st
  }

  /** One iteration of the loop over the lines. */
  function Step(reading: PriceReading, st: State, line: string): State {
    Apply(st, Classify(reading, line))
  }

  /** A reading stores the value of its own key and touches no other. */
  lemma ApplyRecorded(st: State, k: LineKind, key: Key)
    ensures Recorded(Apply(st, k).details, key) == if Sets(k, key) then Some(k.value) else Recorded(st.details, key)
  {
  }

  /** `f` applied to every element of `s`. */
  function MapSeq<A, B>(f: A -> B, s: seq<A>): (r: seq<B>)
    ensures |r| == |s|
    ensures forall j | 0 <= j < |s| :: r[j] == f(s[j])
  {
    seq(|s|, j requires 0 <= j < |s| => f(s[j]))
  }

  /** The reading of a line, as a function of the line. */
  function Reader(reading: PriceReading): string -> LineKind {
    line => Classify(reading, line)
  }

  /** The readings of the lines, one per line. */
  function Classified(reading: PriceReading, lines: seq<string>): (r: seq<LineKind>)
    ensures |r| == |lines|
    ensures forall j | 0 <= j < |lines| :: r[j] == Classify(reading, lines[j])
  {
    MapSeq(Reader(reading), lines)
  }

  /** The loop over the readings of the lines, started from `st`. */
  function Run(st: State, kinds: seq<LineKind>): (r: State)
    decreases |kinds|
  {
    if |kinds| == 0 then st
    else Apply(Run(st, kinds[..|kinds| - 1]), kinds[|kinds| - 1])
  }

  /** The loop over the lines, from the empty dictionary. */
  function RunLines(reading: PriceReading, lines: seq<string>): State {
    Run(Initial, Classified(reading, lines))
  }

  /** The extraction under a chosen reading of the price. */
  function Extract(reading: PriceReading, text: string): Details {
    RunLines(reading, Split(text, "\n")).details
  }

  /**
   * `extract_receipt_details(cleaned_text)` as written: the result always
   * holds a `total_price` entry, and at most one item per line.
   */
  function ExtractReceiptDetails(text: string): (d: Details)
    ensures TotalPrice in d.values
    ensures |d.items| <= |Split(text, "\n")|
  {
    RunKeepsKeys(Initial, Classified(AsWritten, Split(text, "\n")), TotalPrice);
    RunItemsBound(Initial, Classified(AsWritten, Split(text, "\n")));
    Extract(AsWritten, text)
  }

  /** `extract_receipt_details` with the price of each item read after its own marker. */
  function ExtractReceiptDetailsIntended(text: string): (d: Details)
    ensures TotalPrice in d.values
    ensures |d.items| <= |Split(text, "\n")|
  {
    RunKeepsKeys(Initial, Classified(Intended, Split(text, "\n")), TotalPrice);
    RunItemsBound(Initial, Classified(Intended, Split(text, "\n")));
    Extract(Intended, text)
  }

  /** No line removes a key from the dictionary. */
  lemma {:induction false} RunKeepsKeys(st: State, kinds: seq<LineKind>, key: Key)
    requires key in st.details.values
    ensures key in Run(st, kinds).details.values
    decreases |kinds|
  {
    if |kinds| > 0 {
      RunKeepsKeys(st, kinds[..|kinds| - 1], key);
    }
  }

  /** Each reading adds at most one item. */
  lemma {:induction false} RunItemsBound(st: State, kinds: seq<LineKind>)
    ensures |Run(st, kinds).details.items| <= |st.details.items| + |kinds|
    decreases |kinds|
  {
    if |kinds| > 0 {
      RunItemsBound(st, kinds[..|kinds| - 1]);
    }
  }

  /** The state after a non-empty run is the last reading applied to the state before it. */
  lemma RunLast(st: State, kinds: seq<LineKind>)
    requires |kinds| > 0
    ensures Run(st, kinds) == Apply(Run(st, kinds[..|kinds| - 1]), kinds[|kinds| - 1])
  {
  }

  /** The readings of the first `k` lines are the first `k` readings. */
  lemma ClassifiedPrefix(reading: PriceReading, lines: seq<string>, k: nat)
    requires k <= |lines|
    ensures Classified(reading, lines)[..k] == Classified(reading, lines[..k])
  {
    MapPrefix(Reader(reading), lines, k);
  }

  /** The readings of the lines from `k` on are the readings from `k` on. */
  lemma ClassifiedSuffix(reading: PriceReading, lines: seq<string>, k: nat)
    requires k <= |lines|
    ensures Classified(reading, lines)[k..] == Classified(reading, lines[k..])
  {
    MapSuffix(Reader(reading), lines, k);
  }

  /** Lines are read one at a time: the readings of `xs + ys` are those of `xs`, then those of `ys`. */
  lemma ClassifiedAppend(reading: PriceReading, xs: seq<string>, ys: seq<string>)
    ensures Classified(reading, xs + ys) == Classified(reading, xs) + Classified(reading, ys)
  {
    MapAppend(Reader(reading), xs, ys);
  }

  /** Mapping commutes with taking a prefix. */
  lemma MapPrefix<A, B>(f: A -> B, s: seq<A>, k: nat)
    requires k <= |s|
    ensures MapSeq(f, s)[..k] == MapSeq(f, s[..k])
  {
    var a := MapSeq(f, s)[..k];
    var b := MapSeq(f, s[..k]);
    forall j | 0 <= j < k ensures a[j] == b[j] {
      assert s[..k][j] == s[j];
    }
  }

  /** Mapping commutes with dropping a prefix. */
  lemma MapSuffix<A, B>(f: A -> B, s: seq<A>, k: nat)
    requires k <= |s|
    ensures MapSeq(f, s)[k..] == MapSeq(f, s[k..])
  {
    var a := MapSeq(f, s)[k..];
    var b := MapSeq(f, s[k..]);
    forall j | 0 <= j < |s| - k ensures a[j] == b[j] {
      assert s[k..][j] == s[k + j];
    }
  }

  /** Mapping commutes with concatenation. */
  lemma MapAppend<A, B>(f: A -> B, xs: seq<A>, ys: seq<A>)
    ensures MapSeq(f, xs + ys) == MapSeq(f, xs) + MapSeq(f, ys)
  {
    var a := MapSeq(f, xs + ys);
    var b := MapSeq(f, xs) + MapSeq(f, ys);
    forall j | 0 <= j < |xs| + |ys| ensures a[j] == b[j] {
      if j < |xs| {
        assert (xs + ys)[j] == xs[j];
      } else {
        assert (xs + ys)[j] == ys[j - |xs|];
      }
    }
  }

  /** The extraction is the loop: each line is one step from the state the lines before it leave. */
  lemma RunLinesLast(reading: PriceReading, lines: seq<string>)
    requires |lines| > 0
    ensures RunLines(reading, lines) == Step(reading, RunLines(reading, lines[..|lines| - 1]), lines[|lines| - 1])
  {
    ClassifiedPrefix(reading, lines, |lines| - 1);
    RunLast(Initial, Classified(reading, lines));
  }

  /** Dropping the last element of a concatenation with a non-empty right part. */
  lemma DropLastAppend<T>(xs: seq<T>, ys: seq<T>)
    requires |ys| > 0
    ensures (xs + ys)[..|xs + ys| - 1] == xs + ys[..|ys| - 1]
    ensures (xs + ys)[|xs + ys| - 1] == ys[|ys| - 1]
  {
  }

  /** Reading `xs + ys` is reading `xs`, then going on with `ys`. */
  lemma {:induction false} RunAppend(st: State, xs: seq<LineKind>, ys: seq<LineKind>)
    ensures Run(st, xs + ys) == Run(Run(st, xs), ys)
    decreases |ys|
  {
    if |ys| == 0 {
      AppendEmpty(xs);
    } else {
      DropLastAppend(xs, ys);
      RunAppend(st, xs, ys[..|ys| - 1]);
      RunLast(st, xs + ys);
      RunLast(Run(st, xs), ys);
    }
  }

  /** A line without a colon can be removed without changing the result. */
  lemma ColonFreeLineIgnored(reading: PriceReading, xs: seq<string>, line: string, ys: seq<string>)
    requires ':' !in line
    ensures RunLines(reading, xs + [line] + ys) == RunLines(reading, xs + ys)
  {
    var a := Classified(reading, xs);
    var b := Classified(reading, ys);
    var c := Classified(reading, [line]);
    ClassifiedAppend(reading, xs + [line], ys);
    ClassifiedAppend(reading, xs, [line]);
    ClassifiedAppend(reading, xs, ys);
    assert c[0] == Skipped;
    RunAppend(Initial, a + c, b);
    RunAppend(Initial, a, c);
    RunAppend(Initial, a, b);
    RunLast(Run(Initial, a), c);
    assert c[..0] == [];
  }

  /**
   * The value of a recorded key is that of the last line that stores it:
   * later lines overwrite earlier ones, in the items section as well as
   * before it.
   */
  lemma {:induction false} LastSetWins(st: State, kinds: seq<LineKind>, key: Key, i: nat)
    requires i < |kinds| && Sets(kinds[i], key)
    requires forall j | i < j < |kinds| :: !Sets(kinds[j], key)
    ensures Recorded(Run(st, kinds).details, key) == Some(kinds[i].value)
    decreases |kinds|
  {
    var n := |kinds| - 1;
    var front := kinds[..n];
    if i < n {
      assert !Sets(kinds[n], key);
      assert forall j | i < j < |front| :: !Sets(front[j], key) by {
        forall j | 0 <= j < |front| ensures front[j] == kinds[j] {
        }
      }
      LastSetWins(st, front, key, i);
    } else {
      assert i == n;
    }
    ApplyRecorded(Run(st, front), kinds[n], key);
    RunLast(st, kinds);
  }

  /** A recorded key that some reading stores keeps a value from then on. */
  lemma {:induction false} SetOnce(st: State, kinds: seq<LineKind>, key: Key, i: nat)
    requires i < |kinds| && Sets(kinds[i], key)
    ensures Recorded(Run(st, kinds).details, key).Some?
    decreases |kinds|
  {
    var n := |kinds| - 1;
    var front := kinds[..n];
    var before := Run(st, front);
    RunLast(st, kinds);
    if i < n {
      assert front[i] == kinds[i];
      SetOnce(st, front, key, i);
    }
    ApplyKeepsRecorded(before, kinds[n], key);
  }

  /** A recorded key keeps a value once it has one, and gets one from a reading that stores it. */
  lemma ApplyKeepsRecorded(st: State, k: LineKind, key: Key)
    requires Recorded(st.details, key).Some? || Sets(k, key)
    ensures Recorded(Apply(st, k).details, key).Some?
  {
    ApplyRecorded(st, k, key);
  }

  /** `v` is the value `init` a key started with, or the value of one of the readings that store it. */
  predicate ValueFrom(v: Option<string>, init: Option<string>, kinds: seq<LineKind>, key: Key) {
    v == init || exists j | 0 <= j < |kinds| :: Sets(kinds[j], key) && Some(kinds[j].value) == v
  }

  /** A recorded key's value is the one it started with or the value of some reading that stores it. */
  lemma {:induction false} ValueFromReading(st: State, kinds: seq<LineKind>, key: Key)
    ensures ValueFrom(Recorded(Run(st, kinds).details, key), Recorded(st.details, key), kinds, key)
    decreases |kinds|
  {
    if |kinds| > 0 {
      var front := kinds[..|kinds| - 1];
      ValueFromReading(st, front, key);
      RunLast(st, kinds);
      ValueFromStep(Recorded(st.details, key), Run(st, front), front, kinds, key);
    }
  }

  /** One more reading keeps a value that came from the start or from a reading. */
  lemma ValueFromStep(init: Option<string>, before: State, front: seq<LineKind>, kinds: seq<LineKind>, key: Key)
    requires |kinds| > 0 && front == kinds[..|kinds| - 1]
    requires ValueFrom(Recorded(before.details, key), init, front, key)
    ensures ValueFrom(Recorded(Apply(before, kinds[|kinds| - 1]).details, key), init, kinds, key)
  {
    var n := |kinds| - 1;
    ApplyRecorded(before, kinds[n], key);
    var v := Recorded(Apply(before, kinds[n]).details, key);
    if Sets(kinds[n], key) {
      assert Sets(kinds[n], key) && Some(kinds[n].value) == v;
    } else if Recorded(before.details, key) != init {
      var j :| 0 <= j < |front| && Sets(front[j], key) && Some(front[j].value) == Recorded(before.details, key);
      assert front[j] == kinds[j];
      assert Sets(kinds[j], key) && Some(kinds[j].value) == v;
    }
  }

  /** A recorded key that no reading stores keeps the value it started with. */
  lemma {:induction false} NeverSet(st: State, kinds: seq<LineKind>, key: Key)
    requires forall j | 0 <= j < |kinds| :: !Sets(kinds[j], key)
    ensures Recorded(Run(st, kinds).details, key) == Recorded(st.details, key)
    decreases |kinds|
  {
    if |kinds| > 0 {
      var n := |kinds| - 1;
      var front := kinds[..n];
      assert !Sets(kinds[n], key);
      assert forall j | 0 <= j < |front| :: !Sets(front[j], key) by {
        forall j | 0 <= j < |front| ensures front[j] == kinds[j] {
        }
      }
      NeverSet(st, front, key);
      ApplyRecorded(Run(st, front), kinds[n], key);
      RunLast(st, kinds);
    }
  }

  /**
   * The value of a recorded key is that of the last line that carries it:
   * later lines overwrite earlier ones, in the items section as well as
   * before it.
   */
  lemma RecordedIsLastValue(reading: PriceReading, lines: seq<string>, key: Key, i: nat)
    requires i < |lines| && HasKey(lines[i], Name(key))
    requires forall j | i < j < |lines| :: !HasKey(lines[j], Name(key))
    ensures Recorded(RunLines(reading, lines).details, key) == Some(ValueOf(lines[i]))
  {
    var kinds := Classified(reading, lines);
    forall j | i < j < |lines|
      ensures !Sets(kinds[j], key)
    {
      ClassifySets(reading, lines[j], key);
    }
    ClassifySets(reading, lines[i], key);
    LastSetWins(Initial, kinds, key, i);
  }

  /** Every recorded value is the value of some line that carries its key. */
  lemma RecordedValueFromLine(reading: PriceReading, lines: seq<string>, key: Key)
    ensures Recorded(RunLines(reading, lines).details, key).Some?
      ==> exists j | 0 <= j < |lines| ::
            HasKey(lines[j], Name(key)) && Some(ValueOf(lines[j])) == Recorded(RunLines(reading, lines).details, key)
  {
    var kinds := Classified(reading, lines);
    ValueFromReading(Initial, kinds, key);
    if Recorded(RunLines(reading, lines).details, key).Some? {
      var j :| 0 <= j < |kinds| && Sets(kinds[j], key) && Some(kinds[j].value) == Recorded(Run(Initial, kinds).details, key);
      ClassifySets(reading, lines[j], key);
    }
  }

  /** A recorded key has a value exactly when some line carries it. */
  lemma RecordedIffKeyed(reading: PriceReading, lines: seq<string>, key: Key)
    ensures Recorded(RunLines(reading, lines).details, key).Some?
      <==> exists j | 0 <= j < |lines| :: HasKey(lines[j], Name(key))
  {
    var kinds := Classified(reading, lines);
    if exists j | 0 <= j < |lines| :: HasKey(lines[j], Name(key)) {
      var j :| 0 <= j < |lines| && HasKey(lines[j], Name(key));
      ClassifySets(reading, lines[j], key);
      SetOnce(Initial, kinds, key, j);
    } else {
      forall j | 0 <= j < |lines|
        ensures !Sets(kinds[j], key)
      {
        ClassifySets(reading, lines[j], key);
      }
      NeverSet(Initial, kinds, key);
    }
  }

  /** A `menu` reading opens the items section for good. */
  lemma {:induction false} MenuOpens(st: State, kinds: seq<LineKind>, j: nat)
    requires j < |kinds| && kinds[j].Menu?
    ensures Run(st, kinds).section == ItemsSection
    decreases |kinds|
  {
    var n := |kinds| - 1;
    var front := kinds[..n];
    if j < n {
      assert front[j] == kinds[j];
      MenuOpens(st, front, j);
    } else {
      assert j == n;
    }
    RunLast(st, kinds);
  }

  /** Without a `menu` reading the section stays as it was, and while it is unset no item is added. */
  lemma {:induction false} NoMenu(st: State, kinds: seq<LineKind>)
    requires forall j | 0 <= j < |kinds| :: !kinds[j].Menu?
    ensures Run(st, kinds).section == st.section
    ensures st.section == NoSection ==> Run(st, kinds).details.items == st.details.items
    decreases |kinds|
  {
    if |kinds| > 0 {
      var n := |kinds| - 1;
      var front := kinds[..n];
      assert !kinds[n].Menu?;
      assert forall j | 0 <= j < |front| :: !front[j].Menu? by {
        forall j | 0 <= j < |front| ensures front[j] == kinds[j] {
        }
      }
      NoMenu(st, front);
      RunLast(st, kinds);
      ApplyNoMenu(Run(st, front), kinds[n]);
    }
  }

  /** A reading other than `menu` keeps the section, and adds no item while it is unset. */
  lemma ApplyNoMenu(st: State, k: LineKind)
    requires !k.Menu?
    ensures Apply(st, k).section == st.section
    ensures st.section == NoSection ==> Apply(st, k).details.items == st.details.items
  {
  }

  /** Before any `menu` line the section is unset and no item has been added. */
  lemma NoMenuNoItems(reading: PriceReading, lines: seq<string>)
    requires forall j | 0 <= j < |lines| :: !HasKey(lines[j], MenuKey)
    ensures RunLines(reading, lines).section == NoSection
    ensures RunLines(reading, lines).details.items == []
  {
    NoMenu(Initial, Classified(reading, lines));
  }

  /** The items section is open after the lines exactly when one of them is a `menu` line. */
  lemma SectionOpensAtMenu(reading: PriceReading, lines: seq<string>)
    ensures RunLines(reading, lines).section == ItemsSection
      <==> exists j | 0 <= j < |lines| :: HasKey(lines[j], MenuKey)
  {
    var kinds := Classified(reading, lines);
    if exists j | 0 <= j < |lines| :: HasKey(lines[j], MenuKey) {
      var j :| 0 <= j < |lines| && HasKey(lines[j], MenuKey);
      MenuOpens(Initial, kinds, j);
    } else {
      NoMenuNoItems(reading, lines);
    }
  }

  /** The items of the item readings, in order. */
  function Candidates(kinds: seq<LineKind>): (r: seq<Item>)
    ensures |r| <= |kinds|
    decreases |kinds|
  {
    if |kinds| == 0 then []
    else
      Candidates(kinds[..|kinds| - 1]) + KindItems(kinds[|kinds| - 1])
  }

  /** The item a reading adds with the items section open, if any. */
  function KindItems(k: LineKind): (r: seq<Item>)
    ensures |r| <= 1
  {
    if k.ItemLine? then [k.item] else []
  }

  lemma CandidatesLast(kinds: seq<LineKind>)
    requires |kinds| > 0
    ensures Candidates(kinds) == Candidates(kinds[..|kinds| - 1]) + KindItems(kinds[|kinds| - 1])
  {
  }

  /**
   * The items the lines would add with the items section open: one per
   * candidate line, in line order.
   */
  function CandidateItems(reading: PriceReading, lines: seq<string>): (r: seq<Item>)
    ensures |r| <= |lines|
    decreases |lines|
  {
    if |lines| == 0 then []
    else CandidateItems(reading, lines[..|lines| - 1]) + ItemsOf(reading, lines[|lines| - 1])
  }

  /** The items a line adds with the items section open: its own item if it is a candidate, else none. */
  function ItemsOf(reading: PriceReading, line: string): (r: seq<Item>)
    ensures |r| <= 1
  {
    if IsItemCandidate(line) then [ReadItem(reading, line)] else []
  }

  /** The reading of a line adds the item the line adds. */
  lemma ItemsOfClassify(reading: PriceReading, line: string)
    ensures KindItems(Classify(reading, line)) == ItemsOf(reading, line)
  {
  }

  lemma CandidateItemsLast(reading: PriceReading, lines: seq<string>)
    requires |lines| > 0
    ensures CandidateItems(reading, lines)
      == CandidateItems(reading, lines[..|lines| - 1]) + ItemsOf(reading, lines[|lines| - 1])
  {
  }

  /** The item readings of the lines are their candidate lines, read as items. */
  lemma {:induction false} CandidatesOfLines(reading: PriceReading, lines: seq<string>)
    ensures Candidates(Classified(reading, lines)) == CandidateItems(reading, lines)
    decreases |lines|
  {
    if |lines| > 0 {
      CandidatesOfLines(reading, lines[..|lines| - 1]);
      CandidatesOfLast(reading, lines);
    }
  }

  /** One more line adds the same item to both sides. */
  lemma CandidatesOfLast(reading: PriceReading, lines: seq<string>)
    requires |lines| > 0
    requires Candidates(Classified(reading, lines[..|lines| - 1])) == CandidateItems(reading, lines[..|lines| - 1])
    ensures Candidates(Classified(reading, lines)) == CandidateItems(reading, lines)
  {
    var n := |lines| - 1;
    var kinds := Classified(reading, lines);
    ClassifiedPrefix(reading, lines, n);
    ItemsOfClassify(reading, lines[n]);
    assert kinds[n] == Classify(reading, lines[n]);
    CandidatesLast(kinds);
    CandidateItemsLast(reading, lines);
    AppendBoth(Candidates(kinds[..n]), KindItems(kinds[n]), CandidateItems(reading, lines[..n]), ItemsOf(reading, lines[n]));
  }

  lemma AppendBoth<T>(a: seq<T>, b: seq<T>, c: seq<T>, d: seq<T>)
    requires a == c && b == d
    ensures a + b == c + d
  {
  }

  lemma AppendEmpty<T>(a: seq<T>)
    ensures a + [] == a
  {
  }

  lemma SeqAppendAssoc<T>(a: seq<T>, b: seq<T>, c: seq<T>)
    ensures a + b + c == a + (b + c)
  {
  }

  /** Once the items section is open it stays open, and every item reading adds its item. */
  lemma {:induction false} ItemsOnceOpen(st: State, kinds: seq<LineKind>)
    requires st.section == ItemsSection
    ensures Run(st, kinds).section == ItemsSection
    ensures Run(st, kinds).details.items == st.details.items + Candidates(kinds)
    decreases |kinds|
  {
    if |kinds| == 0 {
      AppendEmpty(st.details.items);
    } else {
      var n := |kinds| - 1;
      var front := kinds[..n];
      var last := kinds[n];
      ItemsOnceOpen(st, front);
      RunLast(st, kinds);
      CandidatesLast(kinds);
      SeqAppendAssoc(st.details.items, Candidates(front), KindItems(last));
      if !last.ItemLine? {
        AppendEmpty(Run(st, front).details.items);
      }
    }
  }

  /** The items are exactly the item readings after the first `menu` reading. */
  lemma ItemsAfterFirstMenu(kinds: seq<LineKind>, m: nat)
    requires m < |kinds| && kinds[m].Menu?
    requires forall j | 0 <= j < m :: !kinds[j].Menu?
    ensures Run(Initial, kinds).details.items == Candidates(kinds[m + 1..])
  {
    var head := kinds[..m + 1];
    var rest := kinds[m + 1..];
    FirstMenuOpens(kinds, m);
    ItemsOnceOpen(Run(Initial, head), rest);
    TakeDrop(kinds, m + 1);
    RunAppend(Initial, head, rest);
    assert [] + Candidates(rest) == Candidates(rest);
  }

  /** Up to and including the first `menu` reading the section opens and no item is added. */
  lemma FirstMenuOpens(kinds: seq<LineKind>, m: nat)
    requires m < |kinds| && kinds[m].Menu?
    requires forall j | 0 <= j < m :: !kinds[j].Menu?
    ensures Run(Initial, kinds[..m + 1]).section == ItemsSection
    ensures Run(Initial, kinds[..m + 1]).details.items == []
  {
    var head := kinds[..m + 1];
    var pre := kinds[..m];
    TakeTake(kinds, m + 1, m);
    assert forall j | 0 <= j < |pre| :: !pre[j].Menu? by {
      forall j | 0 <= j < |pre| ensures pre[j] == kinds[j] {
      }
    }
    NoMenu(Initial, pre);
    assert head[m] == kinds[m];
    RunLast(Initial, head);
  }

  /** The first `menu` line is read as the first `menu` reading. */
  lemma FirstMenuReading(reading: PriceReading, lines: seq<string>, m: nat)
    requires m < |lines| && HasKey(lines[m], MenuKey)
    requires forall j | 0 <= j < m :: !HasKey(lines[j], MenuKey)
    ensures Classified(reading, lines)[m].Menu?
    ensures forall j | 0 <= j < m :: !Classified(reading, lines)[j].Menu?
  {
  }

  /**
   * The items are exactly the candidate lines after the first `menu` line,
   * in line order; the `menu` line itself and everything before it add none.
   */
  lemma ItemsFollowFirstMenu(reading: PriceReading, lines: seq<string>, m: nat)
    requires m < |lines| && HasKey(lines[m], MenuKey)
    requires forall j | 0 <= j < m :: !HasKey(lines[j], MenuKey)
    ensures RunLines(reading, lines).details.items == CandidateItems(reading, lines[m + 1..])
  {
    FirstMenuReading(reading, lines, m);
    ItemsAfterFirstMenuLine(reading, lines, m);
  }

  /** The items are the candidate items of the lines after the first `menu` reading. */
  lemma ItemsAfterFirstMenuLine(reading: PriceReading, lines: seq<string>, m: nat)
    requires m < |lines| && Classified(reading, lines)[m].Menu?
    requires forall j | 0 <= j < m :: !Classified(reading, lines)[j].Menu?
    ensures RunLines(reading, lines).details.items == CandidateItems(reading, lines[m + 1..])
  {
    var kinds := Classified(reading, lines);
    ItemsAfterFirstMenu(kinds, m);
    CandidatesOfSuffix(reading, lines, m + 1);
    EqualVia(Run(Initial, kinds).details.items, Candidates(kinds[m + 1..]), CandidateItems(reading, lines[m + 1..]));
  }

  lemma EqualVia<T>(a: seq<T>, b: seq<T>, c: seq<T>)
    requires a == b && b == c
    ensures a == c
  {
  }

  /** The item readings of the lines from `k` on are those lines' candidate items. */
  lemma CandidatesOfSuffix(reading: PriceReading, lines: seq<string>, k: nat)
    requires k <= |lines|
    ensures Candidates(Classified(reading, lines)[k..]) == CandidateItems(reading, lines[k..])
  {
    ClassifiedSuffix(reading, lines, k);
    CandidatesOfLines(reading, lines[k..]);
  }

  /** Two items agree in everything but the price. */
  predicate SameButPrice(x: Item, y: Item) {
    x.name == y.name && x.quantity == y.quantity && x.unitPrice == y.unitPrice
  }

  /** Two item lists agree item by item in everything but the price. */
  predicate SameButPrices(xs: seq<Item>, ys: seq<Item>) {
    |xs| == |ys| && forall k | 0 <= k < |xs| :: SameButPrice(xs[k], ys[k])
  }

  /** Two states that agree in everything but item prices. */
  predicate SameButPricesIn(s: State, t: State) {
    s.section == t.section
    && s.details.values == t.details.values && SameButPrices(s.details.items, t.details.items)
  }

  /** Two readings of a line that agree in everything but the price of its item. */
  predicate SameButPriceKind(a: LineKind, b: LineKind) {
    if a.ItemLine? then b.ItemLine? && SameButPrice(a.item, b.item) else a == b
  }

  /** The two readings of a line differ at most in the price of its item. */
  lemma ClassifyReadings(line: string)
    ensures SameButPriceKind(Classify(AsWritten, line), Classify(Intended, line))
  {
    if IsItemCandidate(line) {
      ParseItemChangesOnlyPrice(line);
    }
  }

  /** A new last item of each list keeps two lists agreeing but for prices. */
  lemma AppendSameButPrice(xs: seq<Item>, x: Item, ys: seq<Item>, y: Item)
    requires SameButPrices(xs, ys) && SameButPrice(x, y)
    ensures SameButPrices(xs + [x], ys + [y])
  {
    assert forall k | 0 <= k < |xs| :: (xs + [x])[k] == xs[k] && (ys + [y])[k] == ys[k];
    assert (xs + [x])[|xs|] == x && (ys + [y])[|ys|] == y;
  }

  /** Readings that agree but for prices move states that agree but for prices to states that do. */
  lemma ApplySameButPrices(s: State, t: State, a: LineKind, b: LineKind)
    requires SameButPricesIn(s, t) && SameButPriceKind(a, b)
    ensures SameButPricesIn(Apply(s, a), Apply(t, b))
  {
    if a.ItemLine? && s.section == ItemsSection {
      AppendSameButPrice(s.details.items, a.item, t.details.items, b.item);
    }
  }

  /** Runs over readings that agree but for prices end in states that agree but for prices. */
  lemma {:induction false} RunSameButPrices(st: State, xs: seq<LineKind>, ys: seq<LineKind>)
    requires |xs| == |ys| && forall j | 0 <= j < |xs| :: SameButPriceKind(xs[j], ys[j])
    ensures SameButPricesIn(Run(st, xs), Run(st, ys))
    decreases |xs|
  {
    if |xs| == 0 {
      assert SameButPrices(st.details.items, st.details.items);
    } else {
      var n := |xs| - 1;
      assert forall j | 0 <= j < n :: SameButPriceKind(xs[..n][j], ys[..n][j]) by {
        forall j | 0 <= j < n ensures xs[..n][j] == xs[j] && ys[..n][j] == ys[j] {
        }
      }
      RunSameButPrices(st, xs[..n], ys[..n]);
      ApplySameButPrices(Run(st, xs[..n]), Run(st, ys[..n]), xs[n], ys[n]);
      RunLast(st, xs);
      RunLast(st, ys);
    }
  }

  /**
   * The corrected reading changes nothing but item prices: the same total
   * price and other recorded values, and as many items, agreeing in name,
   * quantity and unit price.
   */
  lemma ReadingsDifferOnlyInPrices(lines: seq<string>)
    ensures SameButPricesIn(RunLines(AsWritten, lines), RunLines(Intended, lines))
  {
    var xs := Classified(AsWritten, lines);
    var ys := Classified(Intended, lines);
    forall j | 0 <= j < |lines|
      ensures SameButPriceKind(xs[j], ys[j])
    {
      ClassifyReadings(lines[j]);
    }
    RunSameButPrices(Initial, xs, ys);
  }

  /**
   * Every `menu` line only opens the items section: whatever else it
   * carries, it adds no item and leaves the recorded values as they were.
   */
  lemma MenuLineAddsNoItem(reading: PriceReading, st: State, line: string)
    requires HasKey(line, MenuKey)
    ensures Step(reading, st, line).section == ItemsSection
    ensures Step(reading, st, line).details == st.details
  {
  }

  /**
   * A `menu` line that also carries the first item, as CORD output puts it:
   * `menu: nm: Teanm: num: 2num: ...`.
   */
  function MenuItemLine(name: string, quantity: string, unitPrice: string, price: string): string {
    MenuKey + ":" + (" " + FormatClosedItem(name, quantity, unitPrice, price))
  }

  /**
   * The CORD `menu` line passes the item guard, yet its item is never
   * added, under either reading of the price.
   */
  lemma MenuLineDropsItsItem(a: string, b: string, c: string, d: string)
    ensures HasKey(MenuItemLine(a, b, c, d), MenuKey)
    ensures IsItemLineAsWritten(MenuItemLine(a, b, c, d))
    ensures forall reading: PriceReading, st: State ::
      Step(reading, st, MenuItemLine(a, b, c, d)).details.items == st.details.items
  {
    var rest := " " + FormatClosedItem(a, b, c, d);
    MenuKeyIsNormal();
    EntryOfKeyValue(MenuKey, rest);
    ClosedItemGuard(a, b, c, d);
    GuardAfterPrefix(" ", FormatClosedItem(a, b, c, d));
    GuardAfterPrefix(MenuKey + ":", rest);
    forall reading: PriceReading, st: State {
      MenuLineAddsNoItem(reading, st, MenuItemLine(a, b, c, d));
    }
  }

  lemma TakeDrop<T>(s: seq<T>, k: nat)
    requires k <= |s|
    ensures s[..k] + s[k..] == s
  {
  }

  lemma TakeTake<T>(s: seq<T>, k: nat, j: nat)
    requires j <= k <= |s|
    ensures s[..k][..j] == s[..j]
  {
  }
}

=== FILE: items.dfy ===
/**
 * The item records of `extract_receipt_details` (hugging.py): a line of the
 * menu section that carries the four field markers `nm:`, `num:`,
 * `unitprice:` and `price:` becomes one item.
 *
 * The source takes the price as `line.split('price:')[1]`: the text between
 * the first and the second `price:` of the line.  When the line's
 * `unitprice:` comes before its own `price:`, the first `price:` is the tail
 * of `unitprice:`, so that piece is not the price.  On a line with one
 * marker per field (`FormatItem`) it is the unit price
 * (`AsWrittenPriceIsUnitPrice`); on a line that keeps the residue of the
 * closing tags, where every value is followed by its own marker again
 * (`FormatClosedItem`), it is the unit price with `unit` appended
 * (`AsWrittenPriceOnClosedItem`).  `ParseItemAsWritten` keeps the source's
 * reading; `ParseItem` reads the price after the first `price:` that is not
 * the tail of `unitprice:` and recovers the price on both layouts.
 */
module Items {
  import opened Options
  import opened PyStrings

  /** One entry of `details['items']`; every field is a stripped piece of the line. */
  datatype Item = Item(name: string, quantity: string, unitPrice: string, price: string)

  /** A field marker: non-empty text whose only colon is its last character. */
  predicate IsMarker(m: string) {
    |m| > 0 && m[|m| - 1] == ':' && ':' !in m[..|m| - 1]
  }

  /** The guard of the item branch as written: all four markers occur in the line. */
  predicate IsItemLineAsWritten(line: string) {
    Contains(line, "nm:") && Contains(line, "num:") && Contains(line, "unitprice:") && Contains(line, "price:")
  }

  /** The four field extractions of the item branch, exactly as written. */
  function ParseItemAsWritten(line: string): Item
    requires IsItemLineAsWritten(line)
  {
    Item(
      Strip(Split(Split(line, "nm:")[1], "num:")[0]),
      Strip(Split(Split(line, "num:")[1], "unitprice:")[0]),
      Strip(Split(Split(line, "unitprice:")[1], "price:")[0]),
      Strip(Split(line, "price:")[1]))
  }

  /**
   * The first piece of `line.split('price:')`, from index `k` on, that is
   * followed by a `price:` of its own: one that is not the tail of `unitprice:`.
   */
  function OwnPriceMarkerFrom(pieces: seq<string>, k: nat): (r: Option<nat>)
    ensures r.Some? ==> k <= r.value && r.value + 1 < |pieces| && !EndsWith(pieces[r.value], "unit")
    ensures r.Some? ==> forall j | k <= j < r.value :: EndsWith(pieces[j], "unit")
    ensures r.None? ==> forall j | k <= j < |pieces| - 1 :: EndsWith(pieces[j], "unit")
    decreases |pieces| - k
  {
    if k + 1 >= |pieces| then None
    else if !EndsWith(pieces[k], "unit") then Some(k)
    else OwnPriceMarkerFrom(pieces, k + 1)
  }

  /** The line has a `price:` marker that is not part of `unitprice:`. */
  predicate HasOwnPriceMarker(line: string) {
    OwnPriceMarkerFrom(Split(line, "price:"), 0).Some?
  }

  /**
   * The item branch with the price read after the line's own `price:`
   * marker.  The guard is the source's; a line without a `price:` of its own
   * keeps the source's reading of the price, so only the price can differ.
   */
  function ParseItem(line: string): Item
    requires IsItemLineAsWritten(line)
  {
    var pieces := Split(line, "price:");
    var price := match OwnPriceMarkerFrom(pieces, 0)
      case Some(k) => pieces[k + 1]
      case None => pieces[1];
    Item(
      Strip(Split(Split(line, "nm:")[1], "num:")[0]),
      Strip(Split(Split(line, "num:")[1], "unitprice:")[0]),
      Strip(Split(Split(line, "unitprice:")[1], "price:")[0]),
      Strip(price))
  }

  /**
   * The last conjunct of the source's guard is implied by the third:
   * `price:` occurs in every line that contains `unitprice:`.
   */
  lemma PriceGuardIsRedundant(line: string)
    ensures IsItemLineAsWritten(line) <==> Contains(line, "nm:") && Contains(line, "num:") && Contains(line, "unitprice:")
  {
    assert OccursAt("unitprice:", "price:", 4);
    if Contains(line, "unitprice:") {
      ContainsTransitive(line, "unitprice:", "price:");
    }
  }

  /**
   * The corrected reading differs from the source's in the price alone, and
   * only on lines that have a `price:` marker of their own.
   */
  lemma ParseItemChangesOnlyPrice(line: string)
    requires IsItemLineAsWritten(line)
    ensures ParseItem(line).name == ParseItemAsWritten(line).name
    ensures ParseItem(line).quantity == ParseItemAsWritten(line).quantity
    ensures ParseItem(line).unitPrice == ParseItemAsWritten(line).unitPrice
    ensures ParseItem(line).price != ParseItemAsWritten(line).price ==> HasOwnPriceMarker(line)
  {
  }

  /** A line of four values behind four markers, as `FormatItem` lays it out. */
  function Chain(m1: string, a: string, m2: string, b: string, m3: string, c: string, m4: string, d: string): string {
    m1 + (a + m2 + (b + m3 + (c + m4 + d)))
  }

  predicate ChainShape(m1: string, a: string, m2: string, b: string, m3: string, c: string, m4: string, d: string) {
    IsMarker(m1) && IsMarker(m2) && IsMarker(m3) && IsMarker(m4)
    && ':' !in a && ':' !in b && ':' !in c && ':' !in d
  }

  /** An item line with each of the four values behind its own marker and nothing else. */
  function FormatItem(name: string, quantity: string, unitPrice: string, price: string): string {
    Chain("nm:", name, "num:", quantity, "unitprice:", unitPrice, "price:", price)
  }

  /** Marker text cannot occur in text without a colon. */
  lemma SplitColonFree(y: string, m: string)
    requires IsMarker(m) && ':' !in y
    ensures Split(y, m) == [y]
  {
    forall p | 0 <= p <= |y| - |m|
      ensures !OccursAt(y, m, p)
    {
      assert y[p..p + |m|][|m| - 1] == y[p + |m| - 1];
    }
    assert IndexOf(y, m) == None;
  }

  /** An occurrence of a marker that starts before the end of `x + mk` ends with `mk`. */
  lemma OccurrenceEndsAtMarker(x: string, mk: string, y: string, m: string, p: int)
    requires IsMarker(m) && IsMarker(mk) && ':' !in x
    requires OccursAt(x + mk + y, m, p) && p < |x + mk|
    ensures p == |x + mk| - |m|
  {
    var s := x + mk + y;
    var e := p + |m| - 1;
    assert s[e] == ':' by { assert s[p..p + |m|][|m| - 1] == s[e]; }
    assert s[|x + mk| - 1] == ':';
  }

  /** No occurrence of `m` in `x + mk + y` starts before `x + mk` ends, unless `x + mk` ends with `m`. */
  lemma NoOccurrenceBeforeTail(x: string, mk: string, y: string, m: string)
    requires IsMarker(m) && IsMarker(mk) && ':' !in x
    requires !EndsWith(x + mk, m)
    ensures forall p | 0 <= p < |x + mk| :: !OccursAt(x + mk + y, m, p)
  {
    forall p | 0 <= p < |x + mk| && OccursAt(x + mk + y, m, p)
      ensures false
    {
      OccurrenceEndsAtMarker(x, mk, y, m, p);
    }
  }

  /** The first occurrence in `x + mk + y` when `x + mk` ends with the marker. */
  lemma IndexOfPeelAtMarker(x: string, mk: string, y: string, m: string)
    requires IsMarker(m) && IsMarker(mk) && ':' !in x
    requires EndsWith(x + mk, m)
    ensures IndexOf(x + mk + y, m) == Some(|x + mk| - |m|)
  {
    var s := x + mk + y;
    var q := |x + mk| - |m|;
    assert s[q..q + |m|] == (x + mk)[q..];
    forall p | 0 <= p < q
      ensures !OccursAt(s, m, p)
    {
      if OccursAt(s, m, p) {
        OccurrenceEndsAtMarker(x, mk, y, m, p);
      }
    }
    IndexOfIs(s, m, q);
  }

  /** No occurrence in `x + mk + y` when `y` has none and `x + mk` does not end with the marker. */
  lemma IndexOfPeelPastNone(x: string, mk: string, y: string, m: string)
    requires IsMarker(m) && IsMarker(mk) && ':' !in x
    requires !EndsWith(x + mk, m)
    requires IndexOf(y, m) == None
    ensures IndexOf(x + mk + y, m) == None
  {
    var s := x + mk + y;
    var L := |x + mk|;
    NoOccurrenceBeforeTail(x, mk, y, m);
    forall p | L <= p <= |s| - |m|
      ensures !OccursAt(s, m, p)
    {
      OccursInAppend(x + mk, y, m, p);
    }
    assert !Contains(s, m);
  }

  /** The first occurrence in `x + mk + y` is the first one in `y`, when `x + mk` does not end with the marker. */
  lemma IndexOfPeelPastAt(x: string, mk: string, y: string, m: string, j: nat)
    requires IsMarker(m) && IsMarker(mk) && ':' !in x
    requires !EndsWith(x + mk, m)
    requires IndexOf(y, m) == Some(j)
    ensures IndexOf(x + mk + y, m) == Some(|x + mk| + j)
  {
    var s := x + mk + y;
    var L := |x + mk|;
    OccursInAppend(x + mk, y, m, L + j);
    NoOccurrenceBeforeTail(x, mk, y, m);
    forall p | L <= p < L + j
      ensures !OccursAt(s, m, p)
    {
      OccursInAppend(x + mk, y, m, p);
    }
    IndexOfIs(s, m, L + j);
  }

  /** Splitting `x + mk + y` on a marker `m` with which `x + mk` ends cuts there. */
  lemma SplitPeelAt(x: string, mk: string, y: string, m: string)
    requires IsMarker(m) && IsMarker(mk) && ':' !in x
    requires EndsWith(x + mk, m)
    ensures Split(x + mk + y, m) == [(x + mk)[..|x + mk| - |m|]] + Split(y, m)
  {
    var s := x + mk + y;
    var L := |x + mk|;
    IndexOfPeelAtMarker(x, mk, y, m);
    SplitAt(s, m, L - |m|);
    ConcatSlices(x + mk, y, 0);
    assert s[..L - |m|] == (x + mk)[..L - |m|];
  }

  /** Splitting `x + mk + y` on a marker `m` with which `x + mk` does not end extends the first piece of `y`. */
  lemma SplitPeelPast(x: string, mk: string, y: string, m: string, y0: string, rest: seq<string>)
    requires IsMarker(m) && IsMarker(mk) && ':' !in x
    requires !EndsWith(x + mk, m)
    requires Split(y, m) == [y0] + rest
    ensures Split(x + mk + y, m) == [x + mk + y0] + rest
  {
    match IndexOf(y, m)
    case None =>
      IndexOfPeelPastNone(x, mk, y, m);
      assert [y0] + rest == [y];
      assert y0 == ([y0] + rest)[0] && rest == ([y0] + rest)[1..];
    case Some(j) =>
      SplitPeelPastAt(x, mk, y, m, j, y0, rest);
  }

  lemma SplitPeelPastAt(x: string, mk: string, y: string, m: string, j: nat, y0: string, rest: seq<string>)
    requires IsMarker(m) && IsMarker(mk) && ':' !in x
    requires !EndsWith(x + mk, m)
    requires IndexOf(y, m) == Some(j)
    requires Split(y, m) == [y0] + rest
    ensures Split(x + mk + y, m) == [x + mk + y0] + rest
  {
    var u := x + mk;
    var after := y[j + |m|..];
    SplitAt(y, m, j);
    ConsInjective(y0, rest, y[..j], Split(after, m));
    IndexOfPeelPastAt(x, mk, y, m, j);
    var s := u + y;
    var k := |u| + j;
    SplitAt(s, m, k);
    ConcatSlices(u, y, j);
    ConcatSlices(u, y, j + |m|);
    var head, tail := s[..k], s[k + |m|..];
    assert head == u + y0;
    assert tail == after;
    assert Split(s, m) == [head] + Split(tail, m);
  }

  /** A sequence determines its head and its tail. */
  lemma ConsInjective<T>(a: T, r: seq<T>, b: T, t: seq<T>)
    requires [a] + r == [b] + t
    ensures a == b && r == t
  {
    assert ([a] + r)[0] == a && ([b] + t)[0] == b;
    assert ([a] + r)[1..] == r && ([b] + t)[1..] == t;
  }

  /** Whether `x + mk` ends with a marker `m` at least as long as `mk`. */
  lemma EndsWithLonger(x: string, mk: string, m: string)
    requires |m| >= |mk|
    ensures EndsWith(x + mk, m) <==> EndsWith(m, mk) && EndsWith(x, m[..|m| - |mk|])
  {
    var s := x + mk;
    var d := |m| - |mk|;
    if EndsWith(s, m) {
      assert m[d..] == s[|s| - |mk|..] == mk;
      assert x[|x| - d..] == s[|s| - |m|..|s| - |mk|] == m[..d];
    }
    if EndsWith(m, mk) && EndsWith(x, m[..d]) {
      assert s[|s| - |m|..] == x[|x| - d..] + mk;
      assert m == m[..d] + m[d..];
    }
  }

  /** Whether `x + mk` ends with a marker `m` shorter than `mk`. */
  lemma EndsWithShorter(x: string, mk: string, m: string)
    requires |m| <= |mk|
    ensures EndsWith(x + mk, m) <==> EndsWith(mk, m)
  {
    assert (x + mk)[|x + mk| - |m|..] == mk[|mk| - |m|..];
  }

  /** `SplitPeelAt` for a marker that opens the line. */
  lemma SplitLeadingAt(m: string, y: string)
    requires IsMarker(m)
    ensures Split(m + y, m) == [""] + Split(y, m)
  {
    assert "" + m == m;
    assert EndsWith("" + m, m);
    SplitPeelAt("", m, y, m);
  }

  /** `SplitPeelPast` for a marker that opens the line. */
  lemma SplitLeadingPast(mk: string, y: string, m: string, y0: string, rest: seq<string>)
    requires IsMarker(m) && IsMarker(mk)
    requires !EndsWith(mk, m)
    requires Split(y, m) == [y0] + rest
    ensures Split(mk + y, m) == [mk + y0] + rest
  {
    assert "" + mk == mk;
    SplitPeelPast("", mk, y, m, y0, rest);
  }

  lemma ChainFirst(m1: string, a: string, m2: string, b: string, m3: string, c: string, m4: string, d: string)
    requires ChainShape(m1, a, m2, b, m3, c, m4, d)
    requires !EndsWith(c + m4, m1) && !EndsWith(b + m3, m1) && !EndsWith(a + m2, m1)
    ensures Split(Chain(m1, a, m2, b, m3, c, m4, d), m1) == ["", a + m2 + (b + m3 + (c + m4 + d))]
  {
    var r3 := c + m4 + d;
    var r2 := b + m3 + r3;
    var r1 := a + m2 + r2;
    SplitColonFree(d, m1);
    SplitPeelPast(c, m4, d, m1, d, []);
    SplitPeelPast(b, m3, r3, m1, r3, []);
    SplitPeelPast(a, m2, r2, m1, r2, []);
    SplitLeadingAt(m1, r1);
  }

  lemma ChainSecond(m1: string, a: string, m2: string, b: string, m3: string, c: string, m4: string, d: string)
    requires ChainShape(m1, a, m2, b, m3, c, m4, d)
    requires !EndsWith(c + m4, m2) && !EndsWith(b + m3, m2) && EndsWith(a + m2, m2) && !EndsWith(m1, m2)
    ensures Split(Chain(m1, a, m2, b, m3, c, m4, d), m2) == [m1 + a, b + m3 + (c + m4 + d)]
  {
    var r3 := c + m4 + d;
    var r2 := b + m3 + r3;
    var r1 := a + m2 + r2;
    SplitColonFree(d, m2);
    SplitPeelPast(c, m4, d, m2, d, []);
    SplitPeelPast(b, m3, r3, m2, r3, []);
    SplitPeelAt(a, m2, r2, m2);
    assert (a + m2)[..|a + m2| - |m2|] == a;
    SplitLeadingPast(m1, r1, m2, a, [r2]);
  }

  lemma ChainThird(m1: string, a: string, m2: string, b: string, m3: string, c: string, m4: string, d: string)
    requires ChainShape(m1, a, m2, b, m3, c, m4, d)
    requires !EndsWith(c + m4, m3) && EndsWith(b + m3, m3) && !EndsWith(a + m2, m3) && !EndsWith(m1, m3)
    ensures Split(Chain(m1, a, m2, b, m3, c, m4, d), m3) == [m1 + (a + m2 + b), c + m4 + d]
  {
    var r3 := c + m4 + d;
    var r2 := b + m3 + r3;
    var r1 := a + m2 + r2;
    SplitColonFree(d, m3);
    SplitPeelPast(c, m4, d, m3, d, []);
    SplitPeelAt(b, m3, r3, m3);
    assert (b + m3)[..|b + m3| - |m3|] == b;
    SplitPeelPast(a, m2, r2, m3, b, [r3]);
    SplitLeadingPast(m1, r1, m3, a + m2 + b, [r3]);
  }

  lemma ChainFourth(m1: string, a: string, m2: string, b: string, u: string, c: string, m4: string, d: string)
    requires ChainShape(m1, a, m2, b, u + m4, c, m4, d)
    requires !EndsWith(a + m2, m4) && !EndsWith(m1, m4)
    ensures var pieces := Split(Chain(m1, a, m2, b, u + m4, c, m4, d), m4);
      |pieces| == 3 && EndsWith(pieces[0], u) && pieces[1] == c && pieces[2] == d
  {
    var m3 := u + m4;
    var r3 := c + m4 + d;
    var r2 := b + m3 + r3;
    var r1 := a + m2 + r2;
    var cut3 := (c + m4)[..|c + m4| - |m4|];
    var cut2 := (b + m3)[..|b + m3| - |m4|];
    SplitColonFree(d, m4);
    EndsWithShorter(c, m4, m4);
    SplitPeelAt(c, m4, d, m4);
    DropMarker(b, u, m4);
    SplitPeelAt(b, m3, r3, m4);
    SplitPeelPast(a, m2, r2, m4, cut2, Split(r3, m4));
    SplitLeadingPast(m1, r1, m4, a + m2 + cut2, Split(r3, m4));
    ThreePieces(Split(m1 + r1, m4), m1 + (a + m2 + cut2), cut3, d);
    assert cut3 == c;
    EndsWithNested(m1, a + m2, b, u);
  }

  lemma ThreePieces(pieces: seq<string>, x: string, y: string, z: string)
    requires pieces == [x] + ([y] + [z])
    ensures |pieces| == 3 && pieces[0] == x && pieces[1] == y && pieces[2] == z
  {
  }

  /** Dropping a marker `m` from `x + (u + m)` leaves `x + u`. */
  lemma DropMarker(x: string, u: string, m: string)
    ensures EndsWith(x + (u + m), m) && (x + (u + m))[..|x + (u + m)| - |m|] == x + u
  {
    assert (x + (u + m))[|x + (u + m)| - |m|..] == m;
  }

  lemma EndsWithNested(p: string, q: string, b: string, u: string)
    ensures EndsWith(p + (q + (b + u)), u)
  {
    assert (p + (q + (b + u)))[|p + (q + (b + u))| - |u|..] == u;
  }

  /** The first piece of `x + mk + y` split on `mk` is `x`. */
  lemma FirstPiece(x: string, mk: string, y: string)
    requires IsMarker(mk) && ':' !in x
    ensures Split(x + mk + y, mk)[0] == x
  {
    assert EndsWith(x + mk, mk);
    SplitPeelAt(x, mk, y, mk);
    assert (x + mk)[..|x + mk| - |mk|] == x;
  }

  lemma MarkerFacts()
    ensures IsMarker("nm:") && IsMarker("num:") && IsMarker("unitprice:") && IsMarker("price:")
    ensures !EndsWith("price:", "nm:") && !EndsWith("unitprice:", "nm:") && !EndsWith("num:", "nm:")
    ensures !EndsWith("price:", "num:") && !EndsWith("unitprice:", "num:") && !EndsWith("nm:", "num:")
  {
  }

  /** How the four markers of a formatted line end the text before them, for each marker. */
  lemma FormatItemMarkerEnds(a: string, b: string, c: string)
    requires !EndsWith(c, "unit")
    ensures !EndsWith(c + "price:", "nm:") && !EndsWith(b + "unitprice:", "nm:") && !EndsWith(a + "num:", "nm:")
    ensures !EndsWith(c + "price:", "num:") && !EndsWith(b + "unitprice:", "num:") && EndsWith(a + "num:", "num:")
    ensures !EndsWith("nm:", "num:")
    ensures !EndsWith(c + "price:", "unitprice:") && EndsWith(b + "unitprice:", "unitprice:")
    ensures !EndsWith(a + "num:", "unitprice:") && !EndsWith("nm:", "unitprice:")
    ensures !EndsWith(a + "num:", "price:") && !EndsWith("nm:", "price:")
  {
    EndsWithShorter(c, "price:", "nm:");
    EndsWithShorter(b, "unitprice:", "nm:");
    EndsWithShorter(a, "num:", "nm:");
    EndsWithShorter(c, "price:", "num:");
    EndsWithShorter(b, "unitprice:", "num:");
    EndsWithShorter(a, "num:", "num:");
    EndsWithLonger(c, "price:", "unitprice:");
    assert "unitprice:"[..4] == "unit";
    EndsWithShorter(b, "unitprice:", "unitprice:");
    EndsWithLonger(a, "num:", "unitprice:");
    EndsWithLonger(a, "num:", "price:");
  }

  /** `split('nm:')` of a formatted item line, and the name taken from it. */
  lemma NamePiece(a: string, b: string, c: string, d: string)
    requires ':' !in a && ':' !in b && ':' !in c && ':' !in d
    requires !EndsWith(c, "unit")
    ensures |Split(FormatItem(a, b, c, d), "nm:")| == 2
    ensures Split(Split(FormatItem(a, b, c, d), "nm:")[1], "num:")[0] == a
  {
    var r3 := c + "price:" + d;
    var r2 := b + "unitprice:" + r3;
    var r1 := a + "num:" + r2;
    MarkerFacts();
    FormatItemMarkerEnds(a, b, c);
    ChainFirst("nm:", a, "num:", b, "unitprice:", c, "price:", d);
    FirstPiece(a, "num:", r2);
  }

  /** `split('num:')` of a formatted item line, and the quantity taken from it. */
  lemma QuantityPiece(a: string, b: string, c: string, d: string)
    requires ':' !in a && ':' !in b && ':' !in c && ':' !in d
    requires !EndsWith(c, "unit")
    ensures |Split(FormatItem(a, b, c, d), "num:")| == 2
    ensures Split(Split(FormatItem(a, b, c, d), "num:")[1], "unitprice:")[0] == b
  {
    var r3 := c + "price:" + d;
    var r2 := b + "unitprice:" + r3;
    var r1 := a + "num:" + r2;
    MarkerFacts();
    FormatItemMarkerEnds(a, b, c);
    ChainSecond("nm:", a, "num:", b, "unitprice:", c, "price:", d);
    FirstPiece(b, "unitprice:", r3);
  }

  /** `split('unitprice:')` of a formatted item line, and the unit price taken from it. */
  lemma UnitPricePiece(a: string, b: string, c: string, d: string)
    requires ':' !in a && ':' !in b && ':' !in c && ':' !in d
    requires !EndsWith(c, "unit")
    ensures |Split(FormatItem(a, b, c, d), "unitprice:")| == 2
    ensures Split(Split(FormatItem(a, b, c, d), "unitprice:")[1], "price:")[0] == c
  {
    var r3 := c + "price:" + d;
    var r2 := b + "unitprice:" + r3;
    var r1 := a + "num:" + r2;
    MarkerFacts();
    FormatItemMarkerEnds(a, b, c);
    ChainThird("nm:", a, "num:", b, "unitprice:", c, "price:", d);
    FirstPiece(c, "price:", d);
  }

  /**
   * `split('price:')` of a formatted item line: three pieces, the first
   * cut being the tail of `unitprice:`.
   */
  lemma PricePieces(a: string, b: string, c: string, d: string)
    requires ':' !in a && ':' !in b && ':' !in c && ':' !in d
    requires !EndsWith(c, "unit")
    ensures |Split(FormatItem(a, b, c, d), "price:")| == 3
    ensures EndsWith(Split(FormatItem(a, b, c, d), "price:")[0], "unit")
    ensures Split(FormatItem(a, b, c, d), "price:")[1] == c
    ensures Split(FormatItem(a, b, c, d), "price:")[2] == d
  {
    MarkerFacts();
    FormatItemMarkerEnds(a, b, c);
    assert "unitprice:" == "unit" + "price:";
    ChainFourth("nm:", a, "num:", b, "unit", c, "price:", d);
  }

  /** The corrected reading returns the four fields of a formatted item line. */
  lemma ParseFormattedItem(a: string, b: string, c: string, d: string)
    requires ':' !in a && ':' !in b && ':' !in c && ':' !in d
    requires !EndsWith(c, "unit")
    ensures IsItemLineAsWritten(FormatItem(a, b, c, d))
    ensures ParseItem(FormatItem(a, b, c, d)) == Item(Strip(a), Strip(b), Strip(c), Strip(d))
  {
    NamePiece(a, b, c, d);
    QuantityPiece(a, b, c, d);
    UnitPricePiece(a, b, c, d);
    PricePieces(a, b, c, d);
    var line := FormatItem(a, b, c, d);
    var pieces := Split(line, "price:");
    assert OwnPriceMarkerFrom(pieces, 0) == Some(1);
  }

  /**
   * The source's reading returns the unit price in the price field of every
   * formatted item line.
   */
  lemma AsWrittenPriceIsUnitPrice(a: string, b: string, c: string, d: string)
    requires ':' !in a && ':' !in b && ':' !in c && ':' !in d
    requires !EndsWith(c, "unit")
    ensures IsItemLineAsWritten(FormatItem(a, b, c, d))
    ensures ParseItemAsWritten(FormatItem(a, b, c, d)) == Item(Strip(a), Strip(b), Strip(c), Strip(c))
  {
    NamePiece(a, b, c, d);
    QuantityPiece(a, b, c, d);
    UnitPricePiece(a, b, c, d);
    PricePieces(a, b, c, d);
  }

  /** The values of the line in `AsWrittenPriceCounterexample` have no colon and no edge whitespace. */
  lemma CounterexampleValue(v: string)
    requires v in ["Tea", "2", "2.00", "4.00", "unit"]
    ensures ':' !in v && Strip(v) == v
    ensures forall i | 0 <= i < |v| :: !IsWhitespace(v[i])
  {
    assert forall i | 0 <= i < |v| :: !IsWhitespace(v[i]);
  }

  /** A concrete line on which the two readings disagree: the source reports 2.00 for a 4.00 item. */
  lemma AsWrittenPriceCounterexample()
    ensures IsItemLineAsWritten(FormatItem("Tea", "2", "2.00", "4.00"))
    ensures ParseItemAsWritten(FormatItem("Tea", "2", "2.00", "4.00")).price == "2.00"
    ensures ParseItem(FormatItem("Tea", "2", "2.00", "4.00")).price == "4.00"
  {
    CounterexampleValue("Tea");
    CounterexampleValue("2");
    CounterexampleValue("2.00");
    CounterexampleValue("4.00");
    assert "2.00"[0] != "unit"[0];
    ParseFormattedItem("Tea", "2", "2.00", "4.00");
    AsWrittenPriceIsUnitPrice("Tea", "2", "2.00", "4.00");
  }

  /**
   * An item line that keeps the residue of the closing tags: each value is
   * followed by its own marker again, and a space separates one field from
   * the next, as `<s_nm> Tea</s_nm><s_num> 2</s_num>...` reads once cleaned.
   */
  function FormatClosedItem(name: string, quantity: string, unitPrice: string, price: string): string {
    "nm:" + (name + "nm:" + (" " + "num:" + (quantity + "num:" + (" " + "unitprice:" + (unitPrice + "unitprice:" + (" " + "price:" + (price + "price:" + "")))))))
  }

  /** A marker occurs in a line that has it between two pieces. */
  lemma ContainsMarker(x: string, m: string, y: string)
    ensures Contains(x + m + y, m)
  {
    assert (x + m + y)[|x|..|x| + |m|] == m;
    assert OccursAt(x + m + y, m, |x|);
  }

  /** Text in front of a line keeps what the line contains. */
  lemma ContainsAfterPrefix(x: string, y: string, m: string)
    requires Contains(y, m)
    ensures Contains(x + y, m)
  {
    var p :| 0 <= p <= |y| - |m| && OccursAt(y, m, p);
    OccursInAppend(x, y, m, |x| + p);
  }

  /** Text in front of an item line leaves it an item line. */
  lemma GuardAfterPrefix(x: string, line: string)
    requires IsItemLineAsWritten(line)
    ensures IsItemLineAsWritten(x + line)
  {
    ContainsAfterPrefix(x, line, "nm:");
    ContainsAfterPrefix(x, line, "num:");
    ContainsAfterPrefix(x, line, "unitprice:");
    ContainsAfterPrefix(x, line, "price:");
  }

  /** The source's guard admits a closed item line. */
  lemma ClosedItemGuard(a: string, b: string, c: string, d: string)
    ensures IsItemLineAsWritten(FormatClosedItem(a, b, c, d))
  {
    var r7 := d + "price:" + "";
    var r6 := " " + "price:" + r7;
    var r5 := c + "unitprice:" + r6;
    var r4 := " " + "unitprice:" + r5;
    var r3 := b + "num:" + r4;
    var r2 := " " + "num:" + r3;
    var r1 := a + "nm:" + r2;
    assert ("nm:" + r1)[0..3] == "nm:";
    assert OccursAt("nm:" + r1, "nm:", 0);
    ContainsMarker(" ", "num:", r3);
    ContainsAfterPrefix(a + "nm:", r2, "num:");
    ContainsAfterPrefix("nm:", r1, "num:");
    ContainsMarker(" ", "unitprice:", r5);
    ContainsAfterPrefix(b + "num:", r4, "unitprice:");
    ContainsAfterPrefix(" " + "num:", r3, "unitprice:");
    ContainsAfterPrefix(a + "nm:", r2, "unitprice:");
    ContainsAfterPrefix("nm:", r1, "unitprice:");
    PriceGuardIsRedundant("nm:" + r1);
  }

  /** A string ends with whatever its last part ends with. */
  lemma EndsWithAfterPrefix(x: string, y: string, u: string)
    requires EndsWith(y, u)
    ensures EndsWith(x + y, u)
  {
    assert (x + y)[|x + y| - |u|..] == y[|y| - |u|..];
  }

  /** Cutting the marker `m` off `x + m` leaves `x`. */
  lemma CutMarker(x: string, m: string)
    ensures EndsWith(x + m, m) && (x + m)[..|x + m| - |m|] == x
  {
    assert (x + m)[|x + m| - |m|..] == m;
  }

  /** Cutting `price:` off `x + "unitprice:"` leaves `x + "unit"`. */
  lemma CutUnitPrice(x: string)
    ensures EndsWith(x + "unitprice:", "price:")
    ensures (x + "unitprice:")[..|x + "unitprice:"| - |"price:"|] == x + "unit"
  {
    assert "unitprice:" == "unit" + "price:";
    AppendAssoc(x, "unit", "price:");
    CutMarker(x + "unit", "price:");
  }

  /** `split('price:')` of the last field of a closed item line. */
  lemma ClosedItemPriceLast(d: string)
    requires ':' !in d
    ensures Split(" " + "price:" + (d + "price:" + ""), "price:") == [" "] + ([d] + [""])
  {
    var m := "price:";
    MarkerFacts();
    assert Split("", m) == [""];
    CutMarker(d, m);
    SplitPeelAt(d, m, "", m);
    CutMarker(" ", m);
    SplitPeelAt(" ", m, d + m + "", m);
  }

  /** `split('price:')` of the tail of a closed item line from the closing `unitprice:` value on. */
  lemma ClosedItemPriceTail(c: string, d: string)
    requires ':' !in c && ':' !in d
    ensures Split(c + "unitprice:" + (" " + "price:" + (d + "price:" + "")), "price:") == [c + "unit"] + ([" "] + ([d] + [""]))
  {
    MarkerFacts();
    ClosedItemPriceLast(d);
    CutUnitPrice(c);
    SplitPeelAt(c, "unitprice:", " " + "price:" + (d + "price:" + ""), "price:");
  }

  /** `split('price:')` of a closed item line up to its closing `unitprice:` value. */
  lemma ClosedItemPriceHead(a: string, b: string, r5: string)
    requires ':' !in a && ':' !in b
    ensures Split(FormatClosedItemFrom(a, b, r5), "price:")
      == ["nm:" + (a + "nm:" + (" " + "num:" + (b + "num:" + (" " + "unit"))))] + Split(r5, "price:")
    ensures EndsWith("nm:" + (a + "nm:" + (" " + "num:" + (b + "num:" + (" " + "unit")))), "unit")
  {
    var m := "price:";
    var r4 := " " + "unitprice:" + r5;
    var r3 := b + "num:" + r4;
    var r2 := " " + "num:" + r3;
    var r1 := a + "nm:" + r2;
    MarkerFacts();
    assert "unitprice:" == "unit" + m;
    DropMarker(" ", "unit", m);
    SplitPeelAt(" ", "unitprice:", r5, m);
    EndsWithLonger(b, "num:", m);
    SplitPeelPast(b, "num:", r4, m, (" " + "unit"), Split(r5, m));
    EndsWithLonger(" ", "num:", m);
    SplitPeelPast(" ", "num:", r3, m, b + "num:" + (" " + "unit"), Split(r5, m));
    EndsWithLonger(a, "nm:", m);
    var v := " " + "num:" + (b + "num:" + (" " + "unit"));
    SplitPeelPast(a, "nm:", r2, m, v, Split(r5, m));
    SplitLeadingPast("nm:", r1, m, a + "nm:" + v, Split(r5, m));
    EndsWithAfterPrefix(" ", "unit", "unit");
    EndsWithAfterPrefix(b + "num:", (" " + "unit"), "unit");
    EndsWithAfterPrefix(" " + "num:", b + "num:" + (" " + "unit"), "unit");
    EndsWithAfterPrefix(a + "nm:", v, "unit");
    EndsWithAfterPrefix("nm:", a + "nm:" + v, "unit");
  }

  /** A closed item line whose text from the closing `unitprice:` value on is `r5`. */
  function FormatClosedItemFrom(name: string, quantity: string, r5: string): string {
    "nm:" + (name + "nm:" + (" " + "num:" + (quantity + "num:" + (" " + "unitprice:" + r5))))
  }

  /**
   * `split('price:')` of a closed item line: the first `price:` is the tail
   * of the opening `unitprice:`, the second the tail of the closing one.
   */
  lemma ClosedItemPricePieces(a: string, b: string, c: string, d: string)
    requires ':' !in a && ':' !in b && ':' !in c && ':' !in d
    ensures |Split(FormatClosedItem(a, b, c, d), "price:")| == 5
    ensures EndsWith(Split(FormatClosedItem(a, b, c, d), "price:")[0], "unit")
    ensures Split(FormatClosedItem(a, b, c, d), "price:")[1] == c + "unit"
    ensures Split(FormatClosedItem(a, b, c, d), "price:")[2] == " "
    ensures Split(FormatClosedItem(a, b, c, d), "price:")[3] == d
  {
    var r5 := c + "unitprice:" + (" " + "price:" + (d + "price:" + ""));
    assert FormatClosedItem(a, b, c, d) == FormatClosedItemFrom(a, b, r5);
    ClosedItemPriceTail(c, d);
    ClosedItemPriceHead(a, b, r5);
  }

  /**
   * On a closed item line the source's price is the unit price with `unit`
   * appended, while the corrected reading returns the price.
   */
  lemma AsWrittenPriceOnClosedItem(a: string, b: string, c: string, d: string)
    requires ':' !in a && ':' !in b && ':' !in c && ':' !in d
    ensures IsItemLineAsWritten(FormatClosedItem(a, b, c, d))
    ensures ParseItemAsWritten(FormatClosedItem(a, b, c, d)).price == Strip(c + "unit")
    ensures ParseItem(FormatClosedItem(a, b, c, d)).price == Strip(d)
  {
    ClosedItemGuard(a, b, c, d);
    ClosedItemPricePieces(a, b, c, d);
    var pieces := Split(FormatClosedItem(a, b, c, d), "price:");
    assert !EndsWith(pieces[2], "unit");
    assert OwnPriceMarkerFrom(pieces, 0) == Some(2);
  }

  /**
   * The cleaned CORD line `nm: Teanm: num: 2num: unitprice: 2.00unitprice: price: 4.00price:`:
   * the source reports `2.00unit` as the price of a 4.00 item.
   */
  lemma ClosedItemCounterexample()
    ensures IsItemLineAsWritten(FormatClosedItem(" " + "Tea", " " + "2", " " + "2.00", " " + "4.00"))
    ensures ParseItemAsWritten(FormatClosedItem(" " + "Tea", " " + "2", " " + "2.00", " " + "4.00")).price == "2.00" + "unit"
    ensures ParseItem(FormatClosedItem(" " + "Tea", " " + "2", " " + "2.00", " " + "4.00")).price == "4.00"
  {
    CounterexampleValue("Tea");
    CounterexampleValue("2");
    CounterexampleValue("2.00");
    CounterexampleValue("4.00");
    AsWrittenPriceOnClosedItem(" " + "Tea", " " + "2", " " + "2.00", " " + "4.00");
    CounterexampleValue("unit");
    AppendAssoc(" ", "2.00", "unit");
    NoWhitespaceAppend("2.00", "unit");
    StripLeadingSpace("2.00" + "unit");
    StripLeadingSpace("4.00");
  }
}

=== FILE: options.dfy ===
/** The optional value shared by the modules of this model (Python's `None`). */
module Options {

  datatype Option<+T> = None | Some(value: T) {

    /** The carried value, or `default` for `None` (as `dict.get(key, default)`). */
    function GetOr(default: T): T {
      match this
      case Some(v) => v
      case None => default
    }
  }

  /** The value under `k` in `m`, if there is one (Python's `dict.get(k)`). */
  function Lookup<K, V>(m: map<K, V>, k: K): (r: Option<V>)
    ensures r.Some? <==> k in m
  {
    if k in m then Some(m[k]) else None
  }
}

=== FILE: pystrings.dfy ===
/**
 * Models of the Python `str` operations that the receipt post-processing
 * relies on: `in`, `find`, `replace`, `split(sep)`, `split(sep, 1)`,
 * `split()`, `sep.join`, `strip()` and `lower()`.
 *
 * Strings are sequences of characters.  Every pattern passed to these
 * operations in the modelled code is a non-empty literal, so the empty
 * pattern (which Python treats specially) is excluded by a precondition.
 */
module PyStrings {
  import opened Options

  /** The whitespace set of `str.split()` and `str.strip()`, restricted to ASCII. */
  predicate IsWhitespace(c: char) {
    c == ' ' || c == '\t' || c == '\n' || c == '\r' || c == '\U{000B}' || c == '\U{000C}'
  }

  /** `m` occurs in `s` starting at index `p`. */
  predicate OccursAt(s: string, m: string, p: int) {
    0 <= p && p + |m| <= |s| && s[p..p + |m|] == m
  }

  /** Python's substring test `m in s`. */
  predicate Contains(s: string, m: string) {
    exists p | 0 <= p <= |s| - |m| :: OccursAt(s, m, p)
  }

  /** `s` ends with `suffix` (`str.endswith`). */
  predicate EndsWith(s: string, suffix: string) {
    |suffix| <= |s| && s[|s| - |suffix|..] == suffix
  }

  /** Occurrences in the suffix `s[n..]` are the occurrences in `s` from `n` on. */
  lemma OccursInSuffix(s: string, m: string, n: nat, p: int)
    requires n <= |s|
    ensures OccursAt(s[n..], m, p) <==> p >= 0 && OccursAt(s, m, n + p)
  {
    if 0 <= p && n + p + |m| <= |s| {
      assert s[n..][p..p + |m|] == s[n + p..n + p + |m|];
    }
  }

  /** Occurrences that fit in the prefix `s[..n]` are the occurrences in `s`. */
  lemma OccursInPrefix(s: string, m: string, n: nat, p: int)
    requires n <= |s| && p + |m| <= n
    ensures OccursAt(s[..n], m, p) <==> OccursAt(s, m, p)
  {
    if 0 <= p {
      assert s[..n][p..p + |m|] == s[p..p + |m|];
    }
  }

  /** Occurrences in `u + y` that start after `u` are the occurrences in `y`. */
  lemma OccursInAppend(u: string, y: string, m: string, p: int)
    requires |u| <= p
    ensures OccursAt(u + y, m, p) <==> OccursAt(y, m, p - |u|)
  {
    if p + |m| <= |u + y| {
      assert (u + y)[p..p + |m|] == y[p - |u|..p - |u| + |m|];
    }
  }

  /** `s.find(m, k)`: the index of the leftmost occurrence of `m` at or after `k`, if there is one. */
  function IndexFrom(s: string, m: string, k: nat): (r: Option<nat>)
    requires |m| > 0
    ensures r.Some? ==> k <= r.value && OccursAt(s, m, r.value)
    ensures r.Some? ==> forall p | k <= p < r.value :: !OccursAt(s, m, p)
    ensures r.None? ==> forall p | k <= p :: !OccursAt(s, m, p)
    decreases |s| - k
  {
    if |s| < k + |m| then None
    else if OccursAt(s, m, k) then Some(k)
    else IndexFrom(s, m, k + 1)
  }

  /** `s.find(m)`: the index of the leftmost occurrence of `m`, if there is one. */
  function IndexOf(s: string, m: string): (r: Option<nat>)
    requires |m| > 0
    ensures r.Some? ==> OccursAt(s, m, r.value)
    ensures r.Some? ==> forall p | 0 <= p < r.value :: !OccursAt(s, m, p)
    ensures r.None? <==> !Contains(s, m)
  {
    IndexFrom(s, m, 0)
  }

  /** The leftmost occurrence is the only one with no occurrence before it. */
  lemma IndexOfIs(s: string, m: string, q: nat)
    requires |m| > 0
    requires OccursAt(s, m, q)
    requires forall p | 0 <= p < q :: !OccursAt(s, m, p)
    ensures IndexOf(s, m) == Some(q)
  {
    var r := IndexOf(s, m);
    assert r.Some?;
    assert !(r.value < q);
    assert !(q < r.value);
  }

  lemma AppendAssoc(a: string, b: string, c: string)
    ensures a + (b + c) == a + b + c
  {
  }

  /** Cutting a concatenation inside its second part. */
  lemma ConcatSlices(u: string, v: string, n: nat)
    requires n <= |v|
    ensures (u + v)[..|u| + n] == u + v[..n]
    ensures (u + v)[|u| + n..] == v[n..]
  {
  }

  /** A single character occurs exactly where it is an element. */
  lemma ContainsChar(s: string, c: char)
    ensures Contains(s, [c]) <==> c in s
  {
    if c in s {
      var p :| 0 <= p < |s| && s[p] == c;
      assert s[p..p + 1] == [c];
      assert OccursAt(s, [c], p);
    }
    if Contains(s, [c]) {
      var p :| 0 <= p <= |s| - 1 && OccursAt(s, [c], p);
      assert s[p] == s[p..p + 1][0];
    }
  }

  /** A pattern occurs in any string that has an occurrence of a string containing it. */
  lemma ContainsTransitive(s: string, outer: string, inner: string)
    requires Contains(s, outer) && Contains(outer, inner)
    ensures Contains(s, inner)
  {
    var p :| 0 <= p <= |s| - |outer| && OccursAt(s, outer, p);
    var q :| 0 <= q <= |outer| - |inner| && OccursAt(outer, inner, q);
    forall j | 0 <= j < |inner|
      ensures s[p + q + j] == inner[j]
    {
      assert inner[j] == outer[q..q + |inner|][j] == outer[q + j];
      assert outer[q + j] == s[p..p + |outer|][q + j];
    }
    assert s[p + q..p + q + |inner|] == inner;
    assert OccursAt(s, inner, p + q);
  }

  /** `sep.join(parts)`. */
  function Join(parts: seq<string>, sep: string): string
  {
    if |parts| == 0 then ""
    else if |parts| == 1 then parts[0]
    else parts[0] + sep + Join(parts[1..], sep)
  }

  /** A joined string holds only characters of the pieces and of the separator. */
  lemma {:induction false} JoinChars(parts: seq<string>, sep: string)
    ensures forall c | c in Join(parts, sep) :: c in sep || exists k | 0 <= k < |parts| :: c in parts[k]
    decreases |parts|
  {
    if |parts| > 1 {
      JoinChars(parts[1..], sep);
      forall c | c in Join(parts[1..], sep) && c !in sep
        ensures exists k | 0 <= k < |parts| :: c in parts[k]
      {
        var k :| 0 <= k < |parts[1..]| && c in parts[1..][k];
        assert c in parts[k + 1];
      }
    }
  }

  /** A join starts with the first character of its first part. */
  lemma JoinHead(parts: seq<string>, sep: string)
    requires |parts| > 0 && |parts[0]| > 0
    ensures |Join(parts, sep)| > 0 && Join(parts, sep)[0] == parts[0][0]
  {
  }

  lemma JoinCons(w: string, rest: seq<string>, sep: string)
    requires |rest| > 0
    ensures Join([w] + rest, sep) == w + sep + Join(rest, sep)
  {
    assert ([w] + rest)[1..] == rest;
  }

  /**
   * `s.split(sep)`: the pieces between the occurrences of `sep` found left
   * to right; there are at least two pieces exactly when `sep` occurs.
   */
  function Split(s: string, sep: string): (r: seq<string>)
    requires |sep| > 0
    ensures |r| >= 1
    ensures |r| >= 2 <==> Contains(s, sep)
    decreases |s|
  {
    match IndexOf(s, sep)
    case None => [s]
    case Some(i) => [s[..i]] + Split(s[i + |sep|..], sep)
  }

  /** Joining the pieces of a split with its separator gives the input back. */
  lemma {:induction false} JoinSplit(s: string, sep: string)
    requires |sep| > 0
    ensures Join(Split(s, sep), sep) == s
    decreases |s|
  {
    match IndexOf(s, sep)
    case None =>
    case Some(i) =>
      var tail := Split(s[i + |sep|..], sep);
      JoinSplit(s[i + |sep|..], sep);
      JoinCons(s[..i], tail, sep);
      assert s[i..i + |sep|] == sep;
      assert s == s[..i] + s[i..i + |sep|] + s[i + |sep|..];
  }

  /** No piece of a split contains the separator. */
  lemma {:induction false} SplitPiecesAvoidSeparator(s: string, sep: string)
    requires |sep| > 0
    ensures forall k | 0 <= k < |Split(s, sep)| :: !Contains(Split(s, sep)[k], sep)
    decreases |s|
  {
    match IndexOf(s, sep)
    case None =>
    case Some(i) =>
      var head := s[..i];
      SplitPiecesAvoidSeparator(s[i + |sep|..], sep);
      assert OccursAt(s, sep, i);
      forall p | 0 <= p <= |head| - |sep|
        ensures !OccursAt(head, sep, p)
      {
        OccursInPrefix(s, sep, i, p);
      }
  }

  /** Every cut of a split is at the leftmost occurrence of `sep` in the text that remains. */
  lemma {:induction false} SplitCutsLeftmost(s: string, sep: string)
    requires |sep| > 0
    ensures forall k | 0 <= k < |Split(s, sep)| - 1 ::
      IndexOf(Join(Split(s, sep)[k..], sep), sep) == Some(|Split(s, sep)[k]|)
    decreases |s|
  {
    match IndexOf(s, sep)
    case None =>
    case Some(i) =>
      var r := Split(s, sep);
      var tail := Split(s[i + |sep|..], sep);
      SplitCutsLeftmost(s[i + |sep|..], sep);
      JoinSplit(s, sep);
      forall k | 0 <= k < |r| - 1
        ensures IndexOf(Join(r[k..], sep), sep) == Some(|r[k]|)
      {
        if k == 0 {
          assert r[0..] == r;
        } else {
          assert r[k..] == tail[k - 1..];
          assert r[k] == tail[k - 1];
        }
      }
  }

  /**
   * The pieces of `s.split(sep)` are the only pieces that join back into `s`,
   * are cut each time at the leftmost occurrence of `sep` in what remains, and
   * end in a piece without `sep`.
   */
  lemma {:induction false} SplitUnique(s: string, sep: string, r: seq<string>)
    requires |sep| > 0 && |r| >= 1
    requires Join(r, sep) == s
    requires forall k | 0 <= k < |r| - 1 :: IndexOf(Join(r[k..], sep), sep) == Some(|r[k]|)
    requires !Contains(r[|r| - 1], sep)
    ensures r == Split(s, sep)
    decreases |r|
  {
    if |r| == 1 {
      assert IndexOf(s, sep).None?;
    } else {
      var rest := Join(r[1..], sep);
      JoinCons(r[0], r[1..], sep);
      assert [r[0]] + r[1..] == r;
      assert r[0..] == r;
      var i := |r[0]|;
      assert IndexOf(s, sep) == Some(i);
      assert s == r[0] + (sep + rest);
      assert s[..i] == r[0];
      assert s[i + |sep|..] == rest;
      forall k | 0 <= k < |r[1..]| - 1
        ensures IndexOf(Join(r[1..][k..], sep), sep) == Some(|r[1..][k]|)
      {
        assert r[1..][k..] == r[k + 1..];
      }
      SplitUnique(rest, sep, r[1..]);
    }
  }

  /** Splitting cuts at the first occurrence and splits the rest. */
  lemma SplitAt(s: string, sep: string, i: nat)
    requires |sep| > 0
    requires IndexOf(s, sep) == Some(i)
    ensures Split(s, sep) == [s[..i]] + Split(s[i + |sep|..], sep)
  {
  }

  /** `s.split(sep, 1)`: the text before the first `sep` and, if there is one, the text after it. */
  function SplitOnce(s: string, sep: string): (r: seq<string>)
    requires |sep| > 0
    ensures 1 <= |r| <= 2
    ensures |r| == 2 <==> Contains(s, sep)
    ensures |r| == 1 ==> r[0] == s
    ensures |r| == 2 ==> r[0] + sep + r[1] == s && !Contains(r[0], sep)
  {
    match IndexOf(s, sep)
    case None => [s]
    case Some(i) =>
      assert s[..i] + sep + s[i + |sep|..] == s by {
        assert s[i..i + |sep|] == sep;
        assert s == s[..i] + s[i..i + |sep|] + s[i + |sep|..];
      }
      assert !Contains(s[..i], sep) by {
        forall p | OccursAt(s[..i], sep, p)
          ensures false
        {
          OccursInPrefix(s, sep, i, p);
        }
      }
      [s[..i], s[i + |sep|..]]
  }

  /** Cutting at a one-character separator the text before it does not contain. */
  lemma SplitOnceAtFirst(k: string, sep: string, rest: string)
    requires |sep| == 1 && sep[0] !in k
    ensures SplitOnce(k + sep + rest, sep) == [k, rest]
  {
    var s := k + sep + rest;
    assert s[|k|..|k| + 1] == sep;
    forall p | 0 <= p < |k|
      ensures !OccursAt(s, sep, p)
    {
      assert s[p..p + 1][0] == k[p];
    }
    IndexOfIs(s, sep, |k|);
    assert s[..|k|] == k && s[|k| + 1..] == rest;
  }

  /** `s.split(sep, 1)` agrees with the first cut of `s.split(sep)`. */
  lemma SplitOnceIsFirstCut(s: string, sep: string)
    requires |sep| > 0
    ensures SplitOnce(s, sep)[0] == Split(s, sep)[0]
    ensures |SplitOnce(s, sep)| == 2 ==> SplitOnce(s, sep)[1] == Join(Split(s, sep)[1..], sep)
  {
    match IndexOf(s, sep)
    case None =>
    case Some(i) =>
      var rest := s[i + |sep|..];
      SplitAt(s, sep, i);
      assert Split(s, sep)[1..] == Split(rest, sep);
      JoinSplit(rest, sep);
  }

  /**
   * `s.replace(pat, rep)`: scanning left to right, every occurrence of `pat`
   * that does not overlap an earlier replaced one becomes `rep`.
   */
  function Replace(s: string, pat: string, rep: string): string
    requires |pat| > 0
    decreases |s|
  {
    if |s| < |pat| then s
    else if s[..|pat|] == pat then rep + Replace(s[|pat|..], pat, rep)
    else [s[0]] + Replace(s[1..], pat, rep)
  }

  /** Every character of a replacement result comes from the input or from `rep`. */
  lemma {:induction false} ReplaceChars(s: string, pat: string, rep: string)
    requires |pat| > 0
    ensures forall c | c in Replace(s, pat, rep) :: c in s || c in rep
    decreases |s|
  {
    if |s| >= |pat| {
      if s[..|pat|] == pat {
        ReplaceChars(s[|pat|..], pat, rep);
        assert forall c | c in s[|pat|..] :: c in s;
      } else {
        ReplaceChars(s[1..], pat, rep);
        assert forall c | c in s[1..] :: c in s;
      }
    }
  }

  /** Replacing a single character by text without it removes that character. */
  lemma {:induction false} ReplaceRemovesChar(s: string, c: char, rep: string)
    requires c !in rep
    ensures c !in Replace(s, [c], rep)
    decreases |s|
  {
    if |s| >= 1 {
      ReplaceRemovesChar(s[1..], c, rep);
      if s[..1] != [c] {
        assert s[0] != c by { assert s[..1] == [s[0]]; }
      }
    }
  }

  /** Without an occurrence of `pat`, `replace` changes nothing. */
  lemma {:induction false} ReplaceWithoutOccurrence(s: string, pat: string, rep: string)
    requires |pat| > 0
    requires !Contains(s, pat)
    ensures Replace(s, pat, rep) == s
    decreases |s|
  {
    if |s| >= |pat| {
      assert !OccursAt(s, pat, 0);
      forall p | 0 <= p <= |s[1..]| - |pat|
        ensures !OccursAt(s[1..], pat, p)
      {
        OccursInSuffix(s, pat, 1, p);
      }
      ReplaceWithoutOccurrence(s[1..], pat, rep);
      assert [s[0]] + s[1..] == s;
    }
  }

  /** `replace` copies a prefix in which no occurrence of `pat` starts. */
  lemma {:induction false} ReplaceSkips(s: string, pat: string, rep: string, i: nat)
    requires |pat| > 0 && i <= |s|
    requires forall p | 0 <= p < i :: !OccursAt(s, pat, p)
    ensures Replace(s, pat, rep) == s[..i] + Replace(s[i..], pat, rep)
    decreases i
  {
    if i == 0 {
      assert s[..0] == [] && s[0..] == s;
    } else if |s| < |pat| {
      ReplaceShort(s, pat, rep, i);
    } else {
      var t := s[1..];
      NoOccurrenceShift(s, pat, i);
      ReplaceSkips(t, pat, rep, i - 1);
      ReplaceStep(s, pat, rep);
      var tail := Replace(t[i - 1..], pat, rep);
      assert t[i - 1..] == s[i..];
      assert [s[0]] + t[..i - 1] == s[..i];
      AppendAssoc([s[0]], t[..i - 1], tail);
    }
  }

  /** `replace` leaves a string shorter than the pattern, and each of its cuts, unchanged. */
  lemma ReplaceShort(s: string, pat: string, rep: string, i: nat)
    requires |pat| > 0 && i <= |s| < |pat|
    ensures Replace(s, pat, rep) == s[..i] + Replace(s[i..], pat, rep)
  {
    assert Replace(s[i..], pat, rep) == s[i..];
    assert s[..i] + s[i..] == s;
  }

  /** Where no occurrence of `pat` starts, `replace` copies the first character. */
  lemma ReplaceStep(s: string, pat: string, rep: string)
    requires |pat| > 0 && |pat| <= |s|
    requires !OccursAt(s, pat, 0)
    ensures Replace(s, pat, rep) == [s[0]] + Replace(s[1..], pat, rep)
  {
    assert s[..|pat|] == s[0..|pat|];
  }

  /** Dropping the first character shifts the occurrence-free prefix by one. */
  lemma NoOccurrenceShift(s: string, pat: string, i: nat)
    requires 0 < i <= |s|
    requires forall p | 0 <= p < i :: !OccursAt(s, pat, p)
    ensures forall p | 0 <= p < i - 1 :: !OccursAt(s[1..], pat, p)
  {
    forall p | 0 <= p < i - 1
      ensures !OccursAt(s[1..], pat, p)
    {
      OccursInSuffix(s, pat, 1, p);
    }
  }

  /** `replace` copies everything before the first occurrence, then substitutes it. */
  lemma ReplaceAtFirst(s: string, pat: string, rep: string, i: nat)
    requires |pat| > 0
    requires IndexOf(s, pat) == Some(i)
    ensures Replace(s, pat, rep) == s[..i] + rep + Replace(s[i + |pat|..], pat, rep)
  {
    ReplaceSkips(s, pat, rep, i);
    OccursInSuffix(s, pat, i, 0);
    ReplaceAtStart(s[i..], pat, rep);
    var after := Replace(s[i + |pat|..], pat, rep);
    assert s[i..][|pat|..] == s[i + |pat|..];
    AppendAssoc(s[..i], rep, after);
  }

  /** `replace` substitutes an occurrence at the very start. */
  lemma ReplaceAtStart(t: string, pat: string, rep: string)
    requires |pat| > 0
    requires OccursAt(t, pat, 0)
    ensures Replace(t, pat, rep) == rep + Replace(t[|pat|..], pat, rep)
  {
    assert t[..|pat|] == t[0..|pat|];
  }

  /** Python's identity `s.replace(pat, rep) == rep.join(s.split(pat))`. */
  lemma {:induction false} ReplaceIsJoinSplit(s: string, pat: string, rep: string)
    requires |pat| > 0
    ensures Replace(s, pat, rep) == Join(Split(s, pat), rep)
    decreases |s|
  {
    match IndexOf(s, pat)
    case None =>
      ReplaceWithoutOccurrence(s, pat, rep);
    case Some(i) =>
      ReplaceAtFirst(s, pat, rep, i);
      ReplaceIsJoinSplit(s[i + |pat|..], pat, rep);
      JoinCons(s[..i], Split(s[i + |pat|..], pat), rep);
  }

  /** Every piece of a split is made of characters of the input. */
  lemma SplitChars(s: string, sep: string)
    requires |sep| > 0
    ensures forall k, c | 0 <= k < |Split(s, sep)| && c in Split(s, sep)[k] :: c in s
  {
    var parts := Split(s, sep);
    JoinSplit(s, sep);
    forall k, c | 0 <= k < |parts| && c in parts[k]
      ensures c in s
    {
      JoinedPartChars(parts, sep, k, c);
    }
  }

  lemma {:induction false} JoinedPartChars(parts: seq<string>, sep: string, k: nat, c: char)
    requires k < |parts| && c in parts[k]
    ensures c in Join(parts, sep)
    decreases |parts|
  {
    if |parts| > 1 && k > 0 {
      JoinedPartChars(parts[1..], sep, k - 1, c);
    }
  }

  /** The first occurrence of a character is the first one after a prefix without it. */
  lemma IndexOfCharAfter(x: string, c: char, y: string)
    requires c !in x
    ensures IndexOf(x + [c] + y, [c]) == Some(|x|)
  {
    var s := x + [c] + y;
    assert s[|x|..|x| + 1] == [c];
    forall p | 0 <= p < |x|
      ensures !OccursAt(s, [c], p)
    {
      assert s[p..p + 1] == [x[p]];
    }
    IndexOfIs(s, [c], |x|);
  }

  /** Splitting on one character undoes joining pieces that do not contain it. */
  lemma {:induction false} SplitJoinChar(parts: seq<string>, c: char)
    requires |parts| >= 1
    requires forall k | 0 <= k < |parts| :: c !in parts[k]
    ensures Split(Join(parts, [c]), [c]) == parts
    decreases |parts|
  {
    ContainsChar(parts[0], c);
    if |parts| > 1 {
      var x, rest := parts[0], Join(parts[1..], [c]);
      var s := x + [c] + rest;
      assert Join(parts, [c]) == s;
      IndexOfCharAfter(x, c, rest);
      assert s[..|x|] == x;
      assert s[|x| + 1..] == rest;
      assert Split(s, [c]) == [x] + Split(rest, [c]);
      SplitJoinChar(parts[1..], c);
      assert [x] + parts[1..] == parts;
    }
  }

  /** Length of the leading run of non-whitespace characters. */
  function WordLength(s: string): (n: nat)
    ensures n <= |s|
    ensures forall i | 0 <= i < n :: !IsWhitespace(s[i])
    ensures n < |s| ==> IsWhitespace(s[n])
  {
    if |s| == 0 || IsWhitespace(s[0]) then 0 else 1 + WordLength(s[1..])
  }

  /** A token of `str.split()`: non-empty, without whitespace. */
  predicate IsWord(w: string) {
    |w| > 0 && forall i | 0 <= i < |w| :: !IsWhitespace(w[i])
  }

  /** `s.split()`: the maximal runs of non-whitespace characters, in order. */
  function Words(s: string): (r: seq<string>)
    ensures forall k | 0 <= k < |r| :: IsWord(r[k])
    ensures forall k, c | 0 <= k < |r| && c in r[k] :: c in s
    ensures Concat(r) == NonWs(s)
    decreases |s|
  {
    if |s| == 0 then []
    else if IsWhitespace(s[0]) then
      assert forall c | c in s[1..] :: c in s;
      Words(s[1..])
    else
      var n := WordLength(s);
      assert forall c | c in s[n..] :: c in s;
      var rest := Words(s[n..]);
      WordThenRest(s, n, rest);
      [s[..n]] + rest
  }

  /** A leading token followed by the tokens of the rest are the tokens of the whole text. */
  lemma WordThenRest(s: string, n: nat, rest: seq<string>)
    requires 0 < n <= |s|
    requires forall i | 0 <= i < n :: !IsWhitespace(s[i])
    requires forall k | 0 <= k < |rest| :: IsWord(rest[k])
    requires forall k, c | 0 <= k < |rest| && c in rest[k] :: c in s[n..]
    requires Concat(rest) == NonWs(s[n..])
    ensures forall k | 0 <= k < |[s[..n]] + rest| :: IsWord(([s[..n]] + rest)[k])
    ensures forall k, c | 0 <= k < |[s[..n]] + rest| && c in ([s[..n]] + rest)[k] :: c in s
    ensures Concat([s[..n]] + rest) == NonWs(s)
  {
    var r := [s[..n]] + rest;
    forall k | 0 <= k < |r|
      ensures IsWord(r[k])
      ensures forall c | c in r[k] :: c in s
    {
      if k == 0 {
        assert r[k] == s[..n];
        assert forall c | c in s[..n] :: c in s;
      } else {
        assert r[k] == rest[k - 1];
        assert forall c | c in s[n..] :: c in s;
      }
    }
    WordThenRestText(s, n, rest);
  }

  /** The text half of `WordThenRest`. */
  lemma WordThenRestText(s: string, n: nat, rest: seq<string>)
    requires 0 < n <= |s|
    requires forall i | 0 <= i < n :: !IsWhitespace(s[i])
    requires Concat(rest) == NonWs(s[n..])
    ensures Concat([s[..n]] + rest) == NonWs(s)
  {
    NonWsOfWord(s[..n]);
    assert s[..n] + s[n..] == s;
    NonWsAppend(s[..n], s[n..]);
    assert ([s[..n]] + rest)[1..] == rest;
  }

  /** The non-whitespace characters of `s`, in order: the text that `split()` keeps. */
  function NonWs(s: string): string {
    if |s| == 0 then [] else (if IsWhitespace(s[0]) then [] else [s[0]]) + NonWs(s[1..])
  }

  /** The tokens run together without a separator. */
  function Concat(ws: seq<string>): string {
    if |ws| == 0 then [] else ws[0] + Concat(ws[1..])
  }

  /** Dropping whitespace distributes over concatenation. */
  lemma {:induction false} NonWsAppend(a: string, b: string)
    ensures NonWs(a + b) == NonWs(a) + NonWs(b)
    decreases |a|
  {
    if |a| > 0 {
      var head: string := if IsWhitespace(a[0]) then [] else [a[0]];
      assert (a + b)[1..] == a[1..] + b;
      assert (a + b)[0] == a[0];
      NonWsAppend(a[1..], b);
      assert NonWs(a + b) == head + (NonWs(a[1..]) + NonWs(b));
      assert NonWs(a) == head + NonWs(a[1..]);
    } else {
      assert a + b == b;
    }
  }

  /** Text without whitespace is all kept. */
  lemma {:induction false} NonWsOfWord(w: string)
    requires forall i | 0 <= i < |w| :: !IsWhitespace(w[i])
    ensures NonWs(w) == w
    decreases |w|
  {
    if |w| > 0 {
      NonWsOfWord(w[1..]);
      assert [w[0]] + w[1..] == w;
    }
  }

  /** Joining tokens with single spaces keeps exactly their text. */
  lemma {:induction false} NonWsJoin(ws: seq<string>)
    requires forall k | 0 <= k < |ws| :: IsWord(ws[k])
    ensures NonWs(Join(ws, " ")) == Concat(ws)
    decreases |ws|
  {
    if |ws| == 1 {
      NonWsOfWord(ws[0]);
      assert Concat(ws) == ws[0] + Concat([]);
      assert ws[0] + [] == ws[0];
    } else if |ws| > 1 {
      NonWsJoin(ws[1..]);
      NonWsOfWord(ws[0]);
      NonWsAppend(ws[0] + " ", Join(ws[1..], " "));
      NonWsAppend(ws[0], " ");
      assert NonWs(" ") == [];
    }
  }

  /** Replacing a pattern by text with the same non-whitespace characters keeps the text. */
  lemma {:induction false} NonWsReplace(s: string, pat: string, rep: string)
    requires |pat| > 0 && NonWs(pat) == NonWs(rep)
    ensures NonWs(Replace(s, pat, rep)) == NonWs(s)
    decreases |s|
  {
    if |s| >= |pat| {
      if s[..|pat|] == pat {
        NonWsReplace(s[|pat|..], pat, rep);
        NonWsAppend(rep, Replace(s[|pat|..], pat, rep));
        assert s[..|pat|] + s[|pat|..] == s;
        NonWsAppend(s[..|pat|], s[|pat|..]);
      } else {
        NonWsReplace(s[1..], pat, rep);
        NonWsAppend([s[0]], Replace(s[1..], pat, rep));
        assert [s[0]] + s[1..] == s;
        NonWsAppend([s[0]], s[1..]);
      }
    }
  }

  /** Splitting single-space-joined tokens on whitespace gives the tokens back. */
  lemma {:induction false} WordsOfJoin(ws: seq<string>)
    requires forall k | 0 <= k < |ws| :: IsWord(ws[k])
    ensures Words(Join(ws, " ")) == ws
    decreases |ws|
  {
    if |ws| == 1 {
      var w := ws[0];
      WordLengthOfWord(w, "");
      assert w + "" == w;
      assert w[|w|..] == [];
      assert w[..|w|] == w;
      assert Words(w) == [w] + Words([]);
    } else if |ws| > 1 {
      var w, rest := ws[0], Join(ws[1..], " ");
      JoinCons(w, ws[1..], " ");
      assert [w] + ws[1..] == ws;
      var s := w + " " + rest;
      assert s == w + (" " + rest);
      WordLengthOfWord(w, " " + rest);
      assert s[|w|..] == " " + rest;
      assert (" " + rest)[1..] == rest;
      WordsOfJoin(ws[1..]);
    }
  }

  lemma {:induction false} WordLengthOfWord(w: string, t: string)
    requires IsWord(w)
    requires |t| == 0 || IsWhitespace(t[0])
    ensures WordLength(w + t) == |w|
    decreases |w|
  {
    if |w| > 1 {
      assert (w + t)[1..] == w[1..] + t;
      WordLengthOfWord(w[1..], t);
    } else {
      assert (w + t)[1..] == t;
    }
  }

  /** A text without whitespace is a single token of `split()`. */
  lemma WordsOfWord(w: string)
    requires IsWord(w)
    ensures Words(w) == [w]
  {
    WordLengthOfWord(w, "");
    assert w + "" == w;
    assert w[..|w|] == w;
    assert w[|w|..] == [];
  }

  /** The leading token of `x` is the leading token of `x + t` when it ends inside `x` or `t` starts with whitespace. */
  lemma {:induction false} WordLengthOfPrefix(x: string, t: string)
    requires WordLength(x) < |x| || |t| == 0 || IsWhitespace(t[0])
    ensures WordLength(x + t) == WordLength(x)
    decreases |x|
  {
    if |x| == 0 {
      assert x + t == t;
    } else {
      assert (x + t)[0] == x[0];
      if !IsWhitespace(x[0]) {
        assert (x + t)[1..] == x[1..] + t;
        WordLengthOfPrefix(x[1..], t);
      }
    }
  }

  /**
   * `split()` cuts at every whitespace character: the tokens around it are
   * the tokens of the text before it followed by those of the text after it.
   * With `Words("") == []` and `WordsOfWord` this fixes `Words` on every input.
   */
  lemma {:induction false} WordsAtWhitespace(x: string, c: char, y: string)
    requires IsWhitespace(c)
    ensures Words(x + [c] + y) == Words(x) + Words(y)
    decreases |x|
  {
    var s := x + [c] + y;
    if |x| == 0 {
      assert s == [c] + y;
      assert s[1..] == y;
    } else if IsWhitespace(x[0]) {
      assert s[0] == x[0];
      assert s[1..] == x[1..] + [c] + y;
      WordsAtWhitespace(x[1..], c, y);
    } else {
      var m := WordLength(x);
      assert s == x + ([c] + y);
      WordLengthOfPrefix(x, [c] + y);
      assert s[..m] == x[..m];
      assert s[m..] == x[m..] + [c] + y;
      WordsAtWhitespace(x[m..], c, y);
      assert Words(x) == [x[..m]] + Words(x[m..]);
      assert Words(s) == [s[..m]] + Words(s[m..]);
    }
  }

  /** Length of the leading run of whitespace. */
  function LeadingWhitespace(s: string): (n: nat)
    ensures n <= |s|
    ensures forall i | 0 <= i < n :: IsWhitespace(s[i])
    ensures n < |s| ==> !IsWhitespace(s[n])
  {
    if |s| == 0 || !IsWhitespace(s[0]) then 0 else 1 + LeadingWhitespace(s[1..])
  }

  /** Length of `s` once its trailing run of whitespace is cut off. */
  function TrailingCut(s: string): (n: nat)
    ensures n <= |s|
    ensures forall i | n <= i < |s| :: IsWhitespace(s[i])
    ensures n > 0 ==> !IsWhitespace(s[n - 1])
  {
    if |s| == 0 || !IsWhitespace(s[|s| - 1]) then |s| else TrailingCut(s[..|s| - 1])
  }

  /** Text without whitespace has none to cut at either end. */
  lemma NothingToCut(s: string)
    ensures (forall i | 0 <= i < |s| :: !IsWhitespace(s[i])) ==> LeadingWhitespace(s) == 0 && TrailingCut(s) == |s|
  {
    if forall i | 0 <= i < |s| :: !IsWhitespace(s[i]) {
      if |s| > 0 {
        assert !IsWhitespace(s[0]) && !IsWhitespace(s[|s| - 1]);
      }
    }
  }

  /** `r` is `s` with `i` whitespace characters cut from the front and only whitespace cut from the back. */
  predicate TrimmedAt(s: string, r: string, i: int) {
    0 <= i <= |s| - |r| && r == s[i..i + |r|]
    && (forall k | 0 <= k < i :: IsWhitespace(s[k]))
    && (forall k | i + |r| <= k < |s| :: IsWhitespace(s[k]))
  }

  /**
   * `s.strip()`: what is left of `s` once the whitespace at both ends is
   * removed; only whitespace is removed, and the result neither starts nor
   * ends with whitespace.
   */
  function Strip(s: string): (r: string)
    ensures exists i :: TrimmedAt(s, r, i)
    ensures |r| > 0 ==> !IsWhitespace(r[0]) && !IsWhitespace(r[|r| - 1])
    ensures (forall i | 0 <= i < |s| :: !IsWhitespace(s[i])) ==> r == s
  {
    var i := LeadingWhitespace(s);
    var j := if TrailingCut(s) < i then i else TrailingCut(s);
    NothingToCut(s);
    TrimmedBetween(s, i, j);
    s[i..j]
  }

  /** The part between two cuts that remove only whitespace is `s` trimmed at the first cut. */
  lemma TrimmedBetween(s: string, i: nat, j: nat)
    requires i <= j <= |s|
    requires forall k | 0 <= k < i :: IsWhitespace(s[k])
    requires forall k | j <= k < |s| :: IsWhitespace(s[k])
    ensures TrimmedAt(s, s[i..j], i)
  {
    assert i + |s[i..j]| == j;
  }

  /** `strip` only removes characters. */
  lemma StripChars(s: string, c: char)
    ensures c in Strip(s) ==> c in s
  {
    var r := Strip(s);
    var i :| TrimmedAt(s, r, i);
    if c in r {
      var k :| 0 <= k < |r| && r[k] == c;
      assert s[i + k] == r[k];
    }
  }

  /** Two pieces without whitespace join into text without whitespace. */
  lemma NoWhitespaceAppend(x: string, y: string)
    requires forall i | 0 <= i < |x| :: !IsWhitespace(x[i])
    requires forall i | 0 <= i < |y| :: !IsWhitespace(y[i])
    ensures forall i | 0 <= i < |x + y| :: !IsWhitespace((x + y)[i])
  {
    forall i | 0 <= i < |x + y|
      ensures !IsWhitespace((x + y)[i])
    {
      if i >= |x| {
        assert (x + y)[i] == y[i - |x|];
      }
    }
  }

  /** One leading space in front of text without whitespace is all that `strip` removes. */
  lemma StripLeadingSpace(v: string)
    requires forall i | 0 <= i < |v| :: !IsWhitespace(v[i])
    ensures Strip(" " + v) == v
  {
    var s := " " + v;
    assert s[1..] == v;
    assert LeadingWhitespace(s) == 1;
    assert TrailingCut(v) == |v|;
  }

  /** `c.lower()` for ASCII letters; every other character is left as it is. */
  function LowerChar(c: char): char {
    if 'A' <= c <= 'Z' then (c as int + 32) as char else c
  }

  /** `s.lower()`, character by character. */
  function Lower(s: string): (r: string)
    ensures |r| == |s|
    ensures forall i | 0 <= i < |s| :: r[i] == LowerChar(s[i])
  {
    if |s| == 0 then [] else [LowerChar(s[0])] + Lower(s[1..])
  }

  /**
   * `lower` leaves no ASCII capital, keeps every character that is not an
   * ASCII letter where it is, and leaves text without capitals unchanged.
   */
  lemma LowerFacts(s: string)
    ensures forall i | 0 <= i < |s| :: !('A' <= Lower(s)[i] <= 'Z')
    ensures forall i | 0 <= i < |s| :: !('A' <= s[i] <= 'Z') && !('a' <= s[i] <= 'z') ==> Lower(s)[i] == s[i]
    ensures (forall i | 0 <= i < |s| :: !('A' <= s[i] <= 'Z')) ==> Lower(s) == s
  {
  }

  /** A word of lower-case letters is left as it is by stripping and lower-casing. */
  lemma LowerWordNormal(k: string)
    requires forall i | 0 <= i < |k| :: 'a' <= k[i] <= 'z'
    ensures Lower(Strip(k)) == k
  {
    LowerFacts(k);
  }

  /** Lower-casing twice is lower-casing once. */
  lemma {:induction false} LowerIdempotent(s: string)
    ensures Lower(Lower(s)) == Lower(s)
  {
    LowerFacts(s);
    LowerFacts(Lower(s));
  }
}

=== FILE: receipt.dfy ===
/**
 * The string part of `process_receipt` (hugging.py): the predicted text is
 * cleaned, the details are extracted from the cleaned text, and the total
 * price is looked up in them.  The predicted text, which the source obtains
 * from the recognition model, is an input here.
 */
module Receipt {
  import opened Options
  import opened PyStrings
  import opened Clean
  import opened Details

  /** The default of the total price lookup. */
  const TotalNotFound: string := "Total not found"

  /** The object `process_receipt` returns, one field per key. */
  datatype Output = Output(predictedText: string, cleanedText: string, details: Details, totalPrice: Option<string>)

  /** `receipt_details.get('total_price', 'Total not found')`: the default when the entry is absent. */
  function TotalPriceLookup(d: Details): Option<string> {
    Lookup(d.values, TotalPrice).GetOr(Some(TotalNotFound))
  }

  /**
   * `process_receipt` after the prediction.  The extraction always leaves a
   * `total_price` entry, so the lookup never falls back to its default: the
   * total price is the recorded one.
   */
  function ProcessReceipt(predicted: string): (r: Output)
    ensures r.predictedText == predicted
    ensures r.cleanedText == CleanReceiptText(predicted)
    ensures r.details == ExtractReceiptDetails(r.cleanedText)
    ensures TotalPrice in r.details.values
    ensures r.totalPrice == Recorded(r.details, TotalPrice)
  {
    var cleaned := CleanReceiptText(predicted);
    var details := ExtractReceiptDetails(cleaned);
    Output(predicted, cleaned, details, TotalPriceLookup(details))
  }

  /** The lines of the cleaned text, which the extraction reads. */
  function CleanedLines(predicted: string): (r: seq<string>)
    ensures forall k | 0 <= k < |r| :: Normalised(r[k])
  {
    Split(CleanReceiptText(predicted), "\n")
  }

  /** The reported total price is the value of the last `total_price` line of the cleaned text. */
  lemma TotalPriceIsLastTotalLine(predicted: string, i: nat)
    requires i < |CleanedLines(predicted)| && HasKey(CleanedLines(predicted)[i], Name(TotalPrice))
    requires forall j | i < j < |CleanedLines(predicted)| :: !HasKey(CleanedLines(predicted)[j], Name(TotalPrice))
    ensures ProcessReceipt(predicted).totalPrice == Some(ValueOf(CleanedLines(predicted)[i]))
  {
    RecordedIsLastValue(AsWritten, CleanedLines(predicted), TotalPrice, i);
  }

  /**
   * The reported total price is `None` exactly when no line of the cleaned
   * text is a `total_price` line; `Total not found` is reported only when
   * such a line says so.
   */
  lemma TotalPriceNoneIffNoTotalLine(predicted: string)
    ensures ProcessReceipt(predicted).totalPrice.None?
      <==> forall j | 0 <= j < |CleanedLines(predicted)| :: !HasKey(CleanedLines(predicted)[j], Name(TotalPrice))
    ensures ProcessReceipt(predicted).totalPrice == Some(TotalNotFound)
      ==> exists j | 0 <= j < |CleanedLines(predicted)| ::
            HasKey(CleanedLines(predicted)[j], Name(TotalPrice)) && ValueOf(CleanedLines(predicted)[j]) == TotalNotFound
  {
    var lines := CleanedLines(predicted);
    RecordedIffKeyed(AsWritten, lines, TotalPrice);
    RecordedValueFromLine(AsWritten, lines, TotalPrice);
  }
}
